=== FILE: README.md ===
# HEALPix survey tiling and catalogue assembly — a Dafny model

This project models the core of `lib/utils.py` of the wazp cluster finder: the
sky-pixel bookkeeping that cuts a survey into tiles, selects pixels and
objects in discs, annuli and tile pixels, reads and cuts sharded ("mosaic")
catalogues and footprint maps, and stitches per-tile results back into
survey-wide catalogues.

The HEALPix pixelisation itself (`healpy`) is not modelled. It is a
`PixelGrid.Geometry` record of uninterpreted functions: `ang2pix`, `pix2ang`,
`query_disc`, `nside2pixarea`, and the cosine and inverse cosine of
`dist_ang`. The ghost predicate `PixelGrid.Valid` collects the facts about
`healpy` that the code relies on:

- a disc query lists each pixel once;
- pixels have positive area;
- the pixels whose centre lies in a disc overlap every disc of the same
  centre and no smaller radius.

Lemmas that need those facts say so in their `requires`. Everything else holds
for any geometry.

Modules, one per concern of the source file:

- `Outcomes`: `Option` and `Result`, and the failures the code can hit:
  - an empty shard directory (`raw_list[0]`);
  - a division by zero;
  - a variable left unbound;
  - an index past the end of a list;
  - table columns of different lengths.
- `Seqs`: the NumPy idioms as sequence functions, with their laws:
  - boolean-mask selection (`Filter`);
  - `np.unique` with counts (`Unique`, `Count`);
  - `np.argwhere(key == v)` (`Pick`);
  - `np.append` / `np.hstack` (`Flatten`);
  - `argsort` (`SortBy`).
- `PixelGrid`: the geometry record, the cosine clamp and the branch test of
  `cond_in_disc`.
- `Footprint`: the footprint queries:
  - `all_hpx_in_annulus`, `hpx_in_annulus`, `disc_coverfrac`, `hpx_degrade`.
- `Tiling`: `hpx_split_survey`.
- `RegionQuery`: `cond_in_disc`, `cond_in_hpx_disc`, `filter_hpx_tile`.
- `Mosaic`:
  - the four `read_mosaic*` readers;
  - `create_mosaic_footprint`.
- `Catalog`: `concatenate_fits_with_label`, `add_clusters_unique_id`.
- `Members`: `concatenate_members`, both as written and corrected (see
  Findings).

The code is followed where the repository's own description of it says
otherwise:

- `hpx_degrade` derives each coarse fraction from the number of fine pixels
  alone (`counts / nsamp`). It is not the mean of the fine fractions. The fine
  fractions that `hpx_split_survey` reads play no part.
- `add_clusters_unique_id` sorts with NumPy's default `argsort`, which is not
  stable. The model promises no order among clusters of equal
  signal-to-noise.
- `concatenate_members` does not compare a cluster's `nmem` with its number of
  member rows. Setting a column on an astropy table takes a column of the
  table's length as it is and repeats a one-value column over every row of a
  non-empty table; any other length is refused. So the join fails only when the
  id column is neither as long as the member rows nor a single value, and
  otherwise the rows may be silently misaligned. `Members.ConsistentTilesLink`
  states what consistent counts guarantee.
- An empty shard directory fails on its first file name. No other check is
  made.

## Model

| member | source | states |
|---|---|---|
| PixelGrid.Clamp | lib/utils.py:539-545 | The cosine handed to the inverse cosine always lies in [-1, 1]. It is the computed cosine itself whenever that is in range, and only round-off beyond an end is moved onto that end. |
| PixelGrid.ClampMonotone | lib/utils.py:542-543 | Clamping never reverses the order of two cosines, so it never reorders two distances. |
| PixelGrid.PixelSizeTest | lib/utils.py:937-946 | The square-root-free branch test agrees with `sqrt(pixarea) > 0.1 * rad` for every pixel side and every radius, negative radii included. |
| Footprint.AllHpxInAnnulus | lib/utils.py:656-688 | A pixel is returned iff it is in the outer disc and, when the inner radius is positive, not in the inner disc. The result keeps the outer disc's order. With no inner radius it is the outer disc unchanged. Under a valid geometry it has no repeats. |
| Footprint.HpxInAnnulus | lib/utils.py:690-720 | The rows returned are exactly the footprint rows whose pixel is in the annulus, in map order. A row repeated in the map is returned as often as it appears there, and a row outside the annulus not at all. When the annulus has pixels, the area is the fraction sum times the pixel area and the cover fraction is the fraction sum over the annulus pixel count. An empty annulus gives no rows and zeros. |
| Footprint.AnnulusWithoutInnerDisc | lib/utils.py:671-686 | An inner radius of zero or less gives the same answer as radius zero: the rows in the outer disc. |
| Footprint.AnnulusCoverBounds | lib/utils.py:712-719 | For a map with distinct pixels and fractions in [0, 1], the cover fraction lies in [0, 1] and the covered area is not negative. |
| Footprint.DiscCoverfrac | lib/utils.py:845-855 | The call fails with a division by zero exactly when the inclusive disc has no pixel. Otherwise the value lies in [0, 1]. It is 1 iff every disc pixel is in the map and 0 iff none is. |
| Footprint.DiscCoverfracCounts | lib/utils.py:845-855 | Under a valid geometry, the fraction times the number of disc pixels is the number of distinct disc pixels that the map holds. |
| Footprint.HpxDegrade | lib/utils.py:747-764 | The coarse pixels strictly increase, have one fraction each, and are exactly the parents of the input pixels. |
| Footprint.DegradeFractions | lib/utils.py:762-764 | Each coarse fraction times `nsamp` is the number of input pixels whose parent is that coarse pixel. |
| Footprint.DegradeCountsAllPixels | lib/utils.py:760-764 | The counts behind the fractions add up to the number of input pixels. |
| Footprint.DegradeParentsListedOnce | lib/utils.py:760-762 | The parent of every input pixel occurs exactly once among the coarse pixels. |
| Tiling.HpxSplitSurvey | lib/utils.py:785-825 | There is one tile per degraded pixel, numbered from 0 in degrade order. Each tile's pixel is that degraded pixel, its centre is the pixel centre and its nominal area is the tile pixel area. Each effective area is the degraded fraction times that area. The returned count is the number of tiles. |
| Tiling.TilesOrdered | lib/utils.py:808-809 | Tile ids and tile pixels both strictly increase down the table, so no tile is listed twice. |
| Tiling.TilesCoverFootprint | lib/utils.py:785-809 | Every footprint pixel lies in exactly one tile of the table. |
| Tiling.EffectiveSurveyArea | lib/utils.py:813-824 | The effective tile areas add up to the survey effective area the function reports: the fraction sum times the tile area. |
| RegionQuery.CondInDisc | lib/utils.py:920-973 | There is one flag per object. On the coarse-pixel branch with a non-negative radius, an object is accepted iff its pixel is in the inclusive disc and its distance is below the radius. On the fine-pixel branch, an object in the strict 0.8-radius disc is accepted iff the radius is positive. An edge-pixel object is accepted iff its distance is below the radius. Any other object is accepted iff the radius is negative. |
| RegionQuery.CondInDiscWithinDisc | lib/utils.py:946-973 | Under a valid geometry and a non-negative radius, no accepted object has its pixel outside the inclusive disc, on either branch. |
| RegionQuery.CondInDiscAcceptsStrict | lib/utils.py:953-967 | Under a valid geometry, on the fine-pixel branch, every object whose pixel is in the strict 0.8-radius disc is accepted. |
| RegionQuery.StrictTierAccepted | lib/utils.py:953-998 | Under a valid geometry, on the fine-pixel branch of `cond_in_disc`, every object that `cond_in_hpx_disc` flags at 0.8 times the radius is accepted by `cond_in_disc` at the radius. |
| RegionQuery.HpxDiscWithinInclusive | lib/utils.py:991-998 | Under a valid geometry, an object flagged at one radius has its pixel in the inclusive disc of every radius at least as large. |
| RegionQuery.FilterHpxTile | lib/utils.py:436-452 | The kept rows are a subsequence of the catalogue, one per row whose position falls in the tile pixel, and every kept row's position falls in that tile pixel. |
| RegionQuery.FilterHpxTileMembers | lib/utils.py:447-452 | A row is kept iff some catalogue position holding it falls in the tile pixel. |
| RegionQuery.TilesPartitionRows | lib/utils.py:436-452 | Filtering the catalogue once per distinct tile pixel returns every row exactly once in total. |
| Mosaic.MergeShardsMembers | lib/utils.py:103-122 | The merge holds exactly the accepted rows of the listed shards. |
| Mosaic.MergeShardsFlatten | lib/utils.py:103-122 | Selecting rows shard by shard and appending gives the same table, in the same order, as appending the listed shards in order and selecting once. |
| Mosaic.ShardsInDisc | lib/utils.py:91-101 | The shards read are exactly the overlapping mosaic pixels that have a shard, in disc order. Under a valid geometry none is read twice. |
| Mosaic.ReadMosaicInDisc | lib/utils.py:65-125 | An empty directory fails. The result is None iff no overlapping pixel has a shard. Otherwise it is the rows of those shards, shard after shard in disc order, that lie closer to the centre than the radius. |
| Mosaic.ReadMosaicFootprintInDisc | lib/utils.py:128-192 | The footprint variant behaves the same way: an empty directory fails, no overlapping shard gives None, and otherwise the result is the selected rows of the overlapping shards in disc order. A footprint row is positioned by the centre of its own pixel. |
| Mosaic.DiscReadsEachShardOnce | lib/utils.py:96-108 | Under a valid geometry, each shard a disc read selects is loaded exactly once. |
| Mosaic.ShardsInHpix | lib/utils.py:222-230 | The shards a tile read loads are the distinct listed pixels whose centre falls in a tile pixel, in increasing order. |
| Mosaic.ReadMosaicInHpix | lib/utils.py:195-243 | An empty directory fails. The result is None iff no listed pixel centre falls in the tile pixels. Otherwise it is every row of the qualifying shards, shard after shard in increasing pixel order. The footprint reader at lib/utils.py:246-296 is the same function over footprint shards. |
| Mosaic.MosaicFootprint | lib/utils.py:312-360 | There is one shard per distinct parent pixel of the map, in increasing pixel order. Each shard holds as many rows as the map has rows with that parent, in map order: the shard is a subsequence of the map. |
| Mosaic.MosaicShardSound | lib/utils.py:332-353 | Every row of a shard is a map row whose parent is the shard's pixel. |
| Mosaic.MosaicShardComplete | lib/utils.py:332-353 | Every map row is in the shard of its parent pixel. |
| Mosaic.MosaicFootprintPartition | lib/utils.py:332-353 | The shards together hold as many rows as the map, so each row is stored exactly once. |
| Catalog.ConcatWithLabel | lib/utils.py:385-407 | The call fails iff there is no file (unbound result) or fewer labels than files (index past the end). Otherwise the table has as many rows as all the files together. Dropping the label column gives the plain concatenation. The label column is the label of each file repeated once per row of that file, file after file. |
| Catalog.TagAllLabelColumn | lib/utils.py:397-404 | The label column of the labelled table is each file's label repeated over that file's rows, in file order. |
| Catalog.TagAllRows | lib/utils.py:397-404 | Without the label column, the labelled table is the files' rows one file after the other. |
| Catalog.TagAllLabels | lib/utils.py:397-404 | Every output row carries the label of a file that holds it, and every row of file `i` appears with label `i`. |
| Catalog.ParseDecimalString | lib/utils.py:1108 | The decimal id string of a number reads back as that number. |
| Catalog.AddUniqueIds | lib/utils.py:1094-1109 | The rows are a permutation of the input in non-increasing signal-to-noise order, and row `i` has id `str(i)`. |
| Catalog.UniqueIdsDistinct | lib/utils.py:1105-1108 | Each id reads back as its row position, so no two rows share an id. |
| Catalog.UniqueIdsIgnoreInputOrder | lib/utils.py:1105-1107 | Without signal-to-noise ties, the numbered table does not depend on the input order. |
| Catalog.UniqueIdsIdempotent | lib/utils.py:1105-1109 | Without ties, numbering an already numbered table again reproduces it. |
| Members.TileBlock | lib/utils.py:1079-1086 | A tile's tile column has one entry per member of its clusters, each equal to the tile id. |
| Members.TileRowsMembers | lib/utils.py:1056-1071 | A member row is kept for a tile iff it is in the tile's member file and names a cluster of that tile. |
| Members.MemberBlocks | lib/utils.py:1061-1071 | Each tile's block is sorted by cluster index and is a permutation of that tile's member rows that name one of its clusters. |
| Members.Attach | lib/utils.py:1087-1089 | Setting the id and tile columns succeeds iff each is as long as the member rows or is a single value on a non-empty table, and fails with a length mismatch otherwise. The member rows stay as they are; columns of the right length are taken as they are and a single value is repeated on every row. |
| Members.MemberColumnFlatten | lib/utils.py:1072-1075 | The member column is the tiles' member blocks one tile after another, in tile order. |
| Members.IdColumnFlatten | lib/utils.py:1076-1083 | The id column is the tiles' id blocks one tile after another, in tile order. |
| Members.TileColumnFlatten | lib/utils.py:1076-1086 | The tile column is the tiles' tile blocks one tile after another, in tile order. |
| Members.ConcatenateMembers | lib/utils.py:1051-1091 | This is the corrected join. A path list shorter than the tile list fails. No tile gives an empty table. Otherwise the join succeeds iff the id column, whose length is the sum of the clusters' `nmem`, is as long as the member column or is a single value on a non-empty table. On success the member column is the tiles' sorted blocks of kept rows, tile after tile, and holds exactly the member rows that name a cluster of their own tile. The id and tile columns are the tiles' id and tile blocks, or their single value on every row. |
| Members.SingleIdBroadcast | lib/utils.py:1087-1089 | One tile with one cluster of `nmem` 1, id 7, named by two member rows: the join succeeds and both rows get id 7 and tile 0. |
| Members.ConsistentTilesLink | lib/utils.py:1064-1089 | When no two clusters of a tile share an in-tile index and each cluster's `nmem` matches its member rows, the join succeeds. Every row then carries the id of the very cluster it names, and its own tile. |
| Members.AlignBlock | lib/utils.py:1065-1082 | Sorted members against sorted clusters with matching counts: the expanded id column gives each member the id of the cluster with its index. |
| Members.ClusterLoop | lib/utils.py:1076-1086 | This is the inner loop as written. An empty tile changes nothing. In the first tile the columns are started with the tile's blocks. Later tiles append to bound columns, and fail when the columns are still unbound. |
| Members.ConcatenateMembersAsWritten | lib/utils.py:1051-1091 | This is the join as written. With no tile the member table is never bound, so the call fails. |
| Members.AsWrittenAgreesWhenFirstTileHasClusters | lib/utils.py:1072-1089 | When the first tile has a cluster, the code as written builds exactly the corrected table. |
| Members.AsWrittenFailsWhenFirstTileHasNone | lib/utils.py:1077-1088 | When the first tile has no cluster, the code as written always fails on the unbound id column, whatever the later tiles hold. |
| Members.FirstTileWithoutClusterCounterexample | lib/utils.py:1077-1088 | Take two tiles whose only cluster sits in the second tile. The code as written fails, while the corrected join returns that cluster's member under its id. |

## Left out

- File and table I/O is not modelled. This covers FITS reading and writing, `Table.write`, directory creation, `os.listdir` and file-name parsing. A shard directory is its list of pixel ids, and a shard's rows are a function of its pixel id.
- `healpy` is not modelled: `query_disc`, `ang2pix`, `pix2ang` and `nside2pixarea` are foreign calls. They are uninterpreted fields of `Geometry`, constrained only by `Valid`.
- The trigonometry of `dist_ang` (sine, cosine, arccos) is not modelled. The distance is the uninterpreted inverse cosine of the clamped, uninterpreted cosine. Reals are exact, so floating-point rounding is not modelled either.
- `np.around` in `hpx_split_survey` is not modelled: the table holds the unrounded centres and areas. The two `print` calls are left out as well.
- The `ra`/`dec` columns that `create_mosaic_footprint` writes are left out. So is the integer `'K'` column format of its fraction column: the model keeps the fractions as they are.
- `int(label[i])` in `concatenate_fits_with_label` is not modelled: labels are integers already.
- `assume_unique=True` in the `np.isin` calls is not modelled. The model treats each test as plain membership, which is what NumPy computes when the inputs are in fact unique.
- Members.Cluster: the member count `nmem` is a natural number. A negative count, on which `np.ones(nmem)` raises ValueError, is not modelled.
- Cluster ids in `concatenate_members` are modelled as integers. In the survey they are the strings made by `add_clusters_unique_id`; multiplying such a string id by the integer vector `np.ones(nmem).astype(int)` is not modelled.
- The other functions of the file are not part of this model:
  - `create_tile_specs`, `tile_radius`, `filter_disc_tile`, `add_hpx_to_cat`;
  - `sub_hpix`, `makeHealpixMap`, `join_struct_arrays`;
  - `survey_ra_minmax`, `radec_window_area`, `area_ann_deg2`;
  - `mad`, `gaussian`, the kernel functions and `_mstar_`;
  - `concatenate_fits`, `concatenate_clusters`;
  - `create_survey_footprint_from_mosaic`, `get_footprint`, `update_data_structure`.
- Footprint.AnnulusCoverBounds: it assumes a positive pixel area and a map of distinct pixels with fractions in [0, 1]. These are the footprint invariants the code relies on but never checks.
- Footprint.DegradeCountsAllPixels: it states the total on the counts (`fracs * nsamp`), not on the fractions themselves. The fraction total is the same sum divided by `nsamp`.
- RegionQuery.CondInDisc: a negative radius is modelled as the code computes it. On the coarse-pixel branch every object outside the disc is then accepted, because `2 * rad < rad`. No property is claimed for that case.
- Catalog.AddUniqueIds: clusters of equal signal-to-noise may come in any order. The non-stable `argsort` promises none.
- Members.ConcatenateMembers: pairing every tile with the member file of its own index removes the path lookup. The only index error left is a path list shorter than the tile list.

## Findings

| source | as written | input that shows it | evidently intended | confidence | as-written member | corrected member |
|---|---|---|---|---|---|---|
| lib/utils.py:1076-1088 | `ids_for_members` and `tile_for_members` are bound only by the first cluster of the first tile (`it == 0 and i == 0`). Every other cluster appends to them. | Two tiles, 0 and 1. Tile 0 has no cluster and tile 1 has one cluster, id 7, with one member. The append for that cluster reads the unbound `ids_for_members` (UnboundLocalError), and the code never writes the member table. | Start both columns empty, so that any tile may be the first to contribute. The table then holds tile 1's member with `id_cl` 7 and `tile` 1. The corrected join also differs with no tile at all: the code as written never binds `final_members` and fails at `Table(final_members)`, while the corrected join returns an empty table. | not executed | Members.FirstTileWithoutClusterCounterexample | Members.ConcatenateMembers |

=== FILE: catalog.dfy ===
/** Survey-level catalogue assembly: concatenating per-file tables under a label
    column (`concatenate_fits_with_label`) and numbering clusters by decreasing
    signal-to-noise (`add_clusters_unique_id`), lib/utils.py. */
module Catalog {

  import opened Seqs
  import opened Outcomes

  // ---------------------------------------------------------------------
  // concatenate_fits_with_label

  /** A row with the label of the file it came from. */
  datatype Labelled<T> = Labelled(row: T, fileLabel: int)

  /** The rows of one file, each with the file's label (`int(label[i]) * ones(len(dat))`). */
  function Tag<T>(rows: seq<T>, tag: int): (r: seq<Labelled<T>>)
    ensures |r| == |rows|
    ensures forall j :: 0 <= j < |rows| ==> r[j].row == rows[j] && r[j].fileLabel == tag
  {
    seq(|rows|, j requires 0 <= j < |rows| => Labelled(rows[j], tag))
  }

  /** The tagged files one after the other. */
  function TagAll<T>(files: seq<seq<T>>, labels: seq<int>): seq<Labelled<T>>
    requires |labels| >= |files|
  {
    if |files| == 0 then [] else Tag(files[0], labels[0]) + TagAll(files[1..], labels[1..])
  }

  /** The original rows of a labelled table, without the label column. */
  function Unlabel<T>(xs: seq<Labelled<T>>): (r: seq<T>)
    ensures |r| == |xs|
    ensures forall j :: 0 <= j < |xs| ==> r[j] == xs[j].row
  {
    seq(|xs|, j requires 0 <= j < |xs| => xs[j].row)
  }

  /** Concatenation of the files `files` with the label of file `i` added to each of
      its rows. No file at all leaves the result variable unassigned; a label list
      shorter than the file list runs off its end. */
  function ConcatWithLabel<T>(files: seq<seq<T>>, labels: seq<int>): (r: Result<seq<Labelled<T>>>)
    ensures r.Err? <==> |files| == 0 || |labels| < |files|
    ensures |files| == 0 ==> r == Err(UnboundVariable)
    ensures 0 < |files| && |labels| < |files| ==> r == Err(IndexOutOfRange)
    ensures r.Ok? ==> |r.value| == TotalLength(files) && Unlabel(r.value) == Flatten(files)
    ensures r.Ok? ==> LabelColumn(r.value) == Flatten(LabelBlocks(files, labels))
  {
    if |labels| < |files| then
      if |files| == 0 then Err(UnboundVariable) else Err(IndexOutOfRange)
    else if |files| == 0 then Err(UnboundVariable)
    else
      TagAllRows(files, labels);
      TagAllLabelColumn(files, labels);
      FlattenLength(files);
      Ok(TagAll(files, labels))
  }

  /** Dropping the labels gives back the plain concatenation. */
  lemma {:induction false} TagAllRows<T>(files: seq<seq<T>>, labels: seq<int>)
    requires |labels| >= |files|
    ensures Unlabel(TagAll(files, labels)) == Flatten(files)
  {
    if |files| > 0 {
      TagAllRows(files[1..], labels[1..]);
      UnlabelAppend(Tag(files[0], labels[0]), TagAll(files[1..], labels[1..]));
    }
  }

  lemma UnlabelAppend<T>(a: seq<Labelled<T>>, b: seq<Labelled<T>>)
    ensures Unlabel(a + b) == Unlabel(a) + Unlabel(b)
  {
  }

  /** The label column of a labelled table. */
  function LabelColumn<T>(xs: seq<Labelled<T>>): (r: seq<int>)
    ensures |r| == |xs|
    ensures forall j :: 0 <= j < |xs| ==> r[j] == xs[j].fileLabel
  {
    seq(|xs|, j requires 0 <= j < |xs| => xs[j].fileLabel)
  }

  /** The label of file `i`, once per row of that file, file after file. */
  function LabelBlocks<T>(files: seq<seq<T>>, labels: seq<int>): (r: seq<seq<int>>)
    requires |labels| >= |files|
    ensures |r| == |files|
    ensures forall i :: 0 <= i < |files| ==> |r[i]| == |files[i]| && forall j :: 0 <= j < |r[i]| ==> r[i][j] == labels[i]
  {
    seq(|files|, i requires 0 <= i < |files| => Repeat(labels[i], |files[i]|))
  }

  /** The label column is the label of each file repeated over its rows, in file order. */
  lemma {:induction false} TagAllLabelColumn<T>(files: seq<seq<T>>, labels: seq<int>)
    requires |labels| >= |files|
    ensures LabelColumn(TagAll(files, labels)) == Flatten(LabelBlocks(files, labels))
  {
    if |files| > 0 {
      TagAllLabelColumn(files[1..], labels[1..]);
      var head := Tag(files[0], labels[0]);
      var tail := TagAll(files[1..], labels[1..]);
      assert LabelColumn(head + tail) == LabelColumn(head) + LabelColumn(tail);
      assert LabelColumn(head) == LabelBlocks(files, labels)[0];
      assert LabelBlocks(files, labels)[1..] == LabelBlocks(files[1..], labels[1..]);
    }
  }

  /** Every output row carries the label of a file that holds it, and every row of
      file `i` appears with label `i`. */
  lemma {:induction false} TagAllLabels<T>(files: seq<seq<T>>, labels: seq<int>)
    requires |labels| >= |files|
    ensures forall x :: x in TagAll(files, labels) ==>
              exists i :: 0 <= i < |files| && x.row in files[i] && x.fileLabel == labels[i]
    ensures forall i, y :: 0 <= i < |files| && y in files[i] ==> Labelled(y, labels[i]) in TagAll(files, labels)
  {
    if |files| > 0 {
      TagAllLabels(files[1..], labels[1..]);
      var head := Tag(files[0], labels[0]);
      var tail := TagAll(files[1..], labels[1..]);
      forall x | x in TagAll(files, labels)
        ensures exists i :: 0 <= i < |files| && x.row in files[i] && x.fileLabel == labels[i]
      {
        if x in head {
          var j :| 0 <= j < |head| && head[j] == x;
          assert x.row in files[0];
        } else {
          assert x in tail;
          var i :| 0 <= i < |files| - 1 && x.row in files[1..][i] && x.fileLabel == labels[1..][i];
          assert x.row in files[i + 1] && x.fileLabel == labels[i + 1];
        }
      }
      forall i, y | 0 <= i < |files| && y in files[i]
        ensures Labelled(y, labels[i]) in TagAll(files, labels)
      {
        if i == 0 {
          var j :| 0 <= j < |files[0]| && files[0][j] == y;
          assert head[j] == Labelled(y, labels[0]);
        } else {
          assert y in files[1..][i - 1] && labels[1..][i - 1] == labels[i];
        }
      }
    }
  }

  // ---------------------------------------------------------------------
  // add_clusters_unique_id

  /** The decimal form of `n` without leading zeros (`str` of a non-negative integer). */
  function DecimalString(n: nat): (r: string)
    ensures |r| > 0
    ensures forall k :: 0 <= k < |r| ==> '0' <= r[k] <= '9'
  {
    if n < 10 then [Digit(n)] else DecimalString(n / 10) + [Digit(n % 10)]
  }

  function Digit(d: nat): (ch: char)
    requires d < 10
    ensures '0' <= ch <= '9'
  {
    (48 + d) as char
  }

  predicate AllDigits(s: string) {
    forall k :: 0 <= k < |s| ==> '0' <= s[k] <= '9'
  }

  /** The value of a string of decimal digits (the inverse of `DecimalString`). */
  function ParseDecimal(s: string): nat
    requires AllDigits(s)
  {
    if |s| == 0 then 0 else ParseDecimal(s[..|s| - 1]) * 10 + (s[|s| - 1] as int - 48)
  }

  lemma {:induction false} ParseDecimalString(n: nat)
    ensures ParseDecimal(DecimalString(n)) == n
  {
    var s := DecimalString(n);
    if n >= 10 {
      ParseDecimalString(n / 10);
      assert s[..|s| - 1] == DecimalString(n / 10);
    }
  }

  /** Different numbers have different decimal forms. */
  lemma DecimalStringInjective(m: nat, n: nat)
    requires DecimalString(m) == DecimalString(n)
    ensures m == n
  {
    ParseDecimalString(m);
    ParseDecimalString(n);
  }

  /** A cluster row under its survey-wide id. */
  datatype Ranked<T> = Ranked(id: string, row: T)

  function RankedRows<T>(xs: seq<Ranked<T>>): (r: seq<T>)
    ensures |r| == |xs|
    ensures forall i :: 0 <= i < |xs| ==> r[i] == xs[i].row
  {
    seq(|xs|, i requires 0 <= i < |xs| => xs[i].row)
  }

  /** The sort key of `np.argsort(-snr)`. */
  function NegSnr<T>(snr: T -> real): T -> real {
    x => -snr(x)
  }

  /** The clusters reordered by decreasing signal-to-noise, the `i`-th of them given
      the id `str(i)`. Clusters with equal signal-to-noise come in no promised order. */
  function AddUniqueIds<T(==)>(rows: seq<T>, snr: T -> real): (r: seq<Ranked<T>>)
    ensures |r| == |rows|
    ensures multiset(RankedRows(r)) == multiset(rows)
    ensures forall i, j :: 0 <= i < j < |r| ==> snr(r[i].row) >= snr(r[j].row)
    ensures forall i :: 0 <= i < |r| ==> r[i].id == DecimalString(i)
  {
    var sorted := SortBy(rows, NegSnr(snr));
    assert |sorted| == |rows| by {
      assert |multiset(sorted)| == |multiset(rows)|;
    }
    var r := seq(|sorted|, i requires 0 <= i < |sorted| => Ranked(DecimalString(i), sorted[i]));
    assert RankedRows(r) == sorted;
    assert forall i, j :: 0 <= i < j < |r| ==> NegSnr(snr)(sorted[i]) <= NegSnr(snr)(sorted[j]);
    r
  }

  /** Every id reads back as the row's position, so no two rows share an id. */
  lemma UniqueIdsDistinct<T>(rows: seq<T>, snr: T -> real, i: nat, j: nat)
    requires i < j < |rows|
    ensures ParseDecimal(AddUniqueIds(rows, snr)[i].id) == i
    ensures AddUniqueIds(rows, snr)[i].id != AddUniqueIds(rows, snr)[j].id
  {
    ParseDecimalString(i);
    ParseDecimalString(j);
  }

  /** When no two clusters share a signal-to-noise value, the numbering does not
      depend on the order the clusters came in. */
  lemma UniqueIdsIgnoreInputOrder<T(!new)>(a: seq<T>, b: seq<T>, snr: T -> real)
    requires multiset(a) == multiset(b)
    requires forall x, y :: x in a && y in a && snr(x) == snr(y) ==> x == y
    ensures AddUniqueIds(a, snr) == AddUniqueIds(b, snr)
  {
    var sa := SortBy(a, NegSnr(snr));
    var sb := SortBy(b, NegSnr(snr));
    forall x, y | x in multiset(sa) && y in multiset(sa) && NegSnr(snr)(x) == NegSnr(snr)(y)
      ensures x == y
    {
      assert x in multiset(a) && y in multiset(a);
    }
    SortedArrangementUnique(sa, sb, NegSnr(snr));
  }

  /** Numbering an already numbered table again, by the same signal-to-noise and
      with no ties, gives the same table. */
  lemma UniqueIdsIdempotent<T(!new)>(rows: seq<T>, snr: T -> real)
    requires forall x, y :: x in rows && y in rows && snr(x) == snr(y) ==> x == y
    ensures AddUniqueIds(RankedRows(AddUniqueIds(rows, snr)), snr) == AddUniqueIds(rows, snr)
  {
    var again := RankedRows(AddUniqueIds(rows, snr));
    forall x, y | x in again && y in again && snr(x) == snr(y) ensures x == y {
      assert x in multiset(again) && y in multiset(again);
      assert x in multiset(rows) && y in multiset(rows);
    }
    UniqueIdsIgnoreInputOrder(again, rows, snr);
  }
}

=== FILE: footprint.dfy ===
/** Sparse footprint maps (pixel, covered fraction) and the queries over them:
    annulus pixel selection, footprint area in an annulus, disc coverage and the
    degrade of a pixel list to a coarser resolution (lib/utils.py). */
module Footprint {

  import opened Seqs
  import opened PixelGrid
  import opened Outcomes

  /** One row of a footprint map: a pixel and the fraction of it that was observed. */
  datatype FootRow = FootRow(hpix: Pixel, frac: real)

  function PixelColumn(rows: seq<FootRow>): (r: seq<Pixel>)
    ensures |r| == |rows|
    ensures forall i :: 0 <= i < |rows| ==> r[i] == rows[i].hpix
  {
    seq(|rows|, i requires 0 <= i < |rows| => rows[i].hpix)
  }

  function FracColumn(rows: seq<FootRow>): (r: seq<real>)
    ensures |r| == |rows|
    ensures forall i :: 0 <= i < |rows| ==> r[i] == rows[i].frac
  {
    seq(|rows|, i requires 0 <= i < |rows| => rows[i].frac)
  }

  /** Selection masks, named so that every use denotes the same function. */
  function HasPixelIn(pixels: seq<Pixel>): FootRow -> bool {
    (row: FootRow) => row.hpix in pixels
  }

  function Outside(pixels: seq<Pixel>): Pixel -> bool {
    p => p !in pixels
  }

  function Inside(pixels: seq<Pixel>): Pixel -> bool {
    p => p in pixels
  }

  // ---------------------------------------------------------------------
  // all_hpx_in_annulus

  /** The annulus as a set of pixels: in the outer disc, and not in the inner disc
      when there is one (an inner radius of zero or less means no inner disc). */
  ghost predicate InAnnulus(g: Geometry, s: Scheme, c: Sky, rIn: real, rOut: real, inclusive: bool, p: Pixel) {
    p in g.queryDisc(s, c, rOut, inclusive) && !(rIn > 0.0 && p in g.queryDisc(s, c, rIn, inclusive))
  }

  /** The pixels of the annulus around `c`, in the order the outer disc query lists them. */
  function AllHpxInAnnulus(g: Geometry, s: Scheme, c: Sky, rIn: real, rOut: real, inclusive: bool): (r: seq<Pixel>)
    ensures forall p :: p in r <==> InAnnulus(g, s, c, rIn, rOut, inclusive, p)
    ensures IsSubsequence(r, g.queryDisc(s, c, rOut, inclusive))
    ensures rIn <= 0.0 ==> r == g.queryDisc(s, c, rOut, inclusive)
    ensures Valid(g) ==> NoDup(r)
  {
    var outer := g.queryDisc(s, c, rOut, inclusive);
    if rIn > 0.0 then
      var inner := g.queryDisc(s, c, rIn, inclusive);
      var outsideInner := Outside(inner);
      FilterMembers(outer, outsideInner);
      FilterIsSubsequence(outer, outsideInner);
      FilterNoDup(outer, outsideInner);
      Filter(outer, outsideInner)
    else
      SubsequenceOfItself(outer);
      outer
  }

  // ---------------------------------------------------------------------
  // hpx_in_annulus

  /** What `hpx_in_annulus` returns: the footprint rows in the annulus (the source
      returns their pixel and fraction columns), the covered area and the
      covered fraction of the annulus. */
  datatype AnnulusCover = AnnulusCover(rows: seq<FootRow>, areaDeg2: real, coverFrac: real)

  /** Footprint accounting in an annulus. The covered area is the sum of the
      fractions of the footprint pixels in the annulus times the pixel area; the
      cover fraction divides the same sum by the number of annulus pixels. Both
      are zero when the annulus has no pixel. */
  function HpxInAnnulus(g: Geometry, s: Scheme, c: Sky, rIn: real, rOut: real,
                        fp: seq<FootRow>, inclusive: bool): (r: AnnulusCover)
    ensures var ann := AllHpxInAnnulus(g, s, c, rIn, rOut, inclusive);
      && (forall row :: row in r.rows <==> row in fp && row.hpix in ann)
      && IsSubsequence(r.rows, fp)
      && (forall row :: multiset(r.rows)[row] == if row.hpix in ann then multiset(fp)[row] else 0)
      && (|ann| > 0 ==> r == Accounting(r.rows, |ann|, g.pixArea(s.nside)))
      && (|ann| == 0 ==> r == AnnulusCover([], 0.0, 0.0))
  {
    var ann := AllHpxInAnnulus(g, s, c, rIn, rOut, inclusive);
    if |ann| == 0 then
      EmptySubsequence(fp);
      AnnulusCover([], 0.0, 0.0)
    else
      var inAnnulus := HasPixelIn(ann);
      FilterMembers(fp, inAnnulus);
      FilterIsSubsequence(fp, inAnnulus);
      assert forall row :: multiset(Filter(fp, inAnnulus))[row] == if row.hpix in ann then multiset(fp)[row] else 0 by {
        forall row ensures multiset(Filter(fp, inAnnulus))[row] == if row.hpix in ann then multiset(fp)[row] else 0 {
          FilterMultiplicity(fp, inAnnulus, row);
        }
      }
      Accounting(Filter(fp, inAnnulus), |ann|, g.pixArea(s.nside))
  }

  /** The two sums of `hpx_in_annulus` for the selected rows, zero when no row was selected. */
  function Accounting(rows: seq<FootRow>, npixAll: nat, areaPix: real): (r: AnnulusCover)
    requires npixAll > 0
    ensures r.rows == rows
    ensures r.areaDeg2 == Sum(FracColumn(rows)) * areaPix
    ensures r.coverFrac == Sum(FracColumn(rows)) / npixAll as real
  {
    if |rows| > 0 then
      var total := Sum(FracColumn(rows));
      AnnulusCover(rows, total * areaPix, total / npixAll as real)
    else
      assert FracColumn(rows) == [];
      AnnulusCover(rows, 0.0, 0.0)
  }

  /** An inner radius of zero or less gives the plain disc query. */
  lemma AnnulusWithoutInnerDisc(g: Geometry, s: Scheme, c: Sky, rIn: real, rOut: real,
                                fp: seq<FootRow>, inclusive: bool)
    requires rIn <= 0.0
    ensures HpxInAnnulus(g, s, c, rIn, rOut, fp, inclusive) == HpxInAnnulus(g, s, c, 0.0, rOut, fp, inclusive)
    ensures forall row :: row in HpxInAnnulus(g, s, c, rIn, rOut, fp, inclusive).rows <==>
                            row in fp && row.hpix in g.queryDisc(s, c, rOut, inclusive)
  {
  }

  lemma AnnulusCoverBounds(g: Geometry, s: Scheme, c: Sky, rIn: real, rOut: real,
                           fp: seq<FootRow>, inclusive: bool)
    requires g.pixArea(s.nside) > 0.0
    requires NoDup(PixelColumn(fp))
    requires forall i :: 0 <= i < |fp| ==> 0.0 <= fp[i].frac <= 1.0
    ensures 0.0 <= HpxInAnnulus(g, s, c, rIn, rOut, fp, inclusive).coverFrac <= 1.0
    ensures 0.0 <= HpxInAnnulus(g, s, c, rIn, rOut, fp, inclusive).areaDeg2
  {
    var ann := AllHpxInAnnulus(g, s, c, rIn, rOut, inclusive);
    if |ann| > 0 {
      SelectedFractionBound(fp, ann);
      AccountingBounds(Filter(fp, HasPixelIn(ann)), |ann|, g.pixArea(s.nside));
    }
  }

  lemma AccountingBounds(rows: seq<FootRow>, npixAll: nat, areaPix: real)
    requires npixAll > 0 && areaPix > 0.0
    requires 0.0 <= Sum(FracColumn(rows)) <= npixAll as real
    ensures var r := Accounting(rows, npixAll, areaPix);
      && 0.0 <= r.coverFrac <= 1.0
      && 0.0 <= r.areaDeg2 <= npixAll as real * areaPix
  {
    var r := Accounting(rows, npixAll, areaPix);
    CoverArithmetic(Sum(FracColumn(rows)), npixAll as real, areaPix, r.coverFrac, r.areaDeg2);
  }

  /** The arithmetic behind `AnnulusCoverBounds`, over plain reals. */
  lemma CoverArithmetic(total: real, n: real, area: real, cover: real, covered: real)
    requires 0.0 <= total <= n && n > 0.0 && area > 0.0
    requires cover == total / n && covered == total * area
    ensures 0.0 <= cover <= 1.0
    ensures 0.0 <= covered <= n * area
  {
    QuotientAtMostOne(total, n);
    ScaledBound(total, n, area);
  }

  /** The fractions of the map rows whose pixel is among the distinct-or-not pixels
      `ann` add up to at most the number of those pixels. */
  lemma SelectedFractionBound(fp: seq<FootRow>, ann: seq<Pixel>)
    requires NoDup(PixelColumn(fp))
    requires forall i :: 0 <= i < |fp| ==> 0.0 <= fp[i].frac <= 1.0
    ensures 0.0 <= Sum(FracColumn(Filter(fp, HasPixelIn(ann)))) <= |ann| as real
  {
    var rows := Filter(fp, HasPixelIn(ann));
    SelectedRowsFit(fp, ann);
    SelectedFractionsSum(fp, HasPixelIn(ann));
    BoundChain(Sum(FracColumn(rows)), |rows|, |ann|);
  }

  lemma BoundChain(x: real, m: int, n: int)
    requires 0.0 <= x <= m as real && m <= n
    ensures 0.0 <= x <= n as real
  {
  }

  /** Rows with distinct pixels, all of them among `ann`, are no more than `ann`. */
  lemma SelectedRowsFit(fp: seq<FootRow>, ann: seq<Pixel>)
    requires NoDup(PixelColumn(fp))
    ensures |Filter(fp, HasPixelIn(ann))| <= |ann|
  {
    var inAnnulus := HasPixelIn(ann);
    var rows := Filter(fp, inAnnulus);
    SelectedPixelsDistinct(fp, inAnnulus);
    forall x | x in PixelColumn(rows) ensures x in ann {
      var i :| 0 <= i < |PixelColumn(rows)| && PixelColumn(rows)[i] == x;
      assert inAnnulus(rows[i]);
    }
    DistinctWithin(PixelColumn(rows), ann);
  }

  /** The fractions of selected rows, each in [0, 1], add up to at most the number of rows. */
  lemma SelectedFractionsSum(fp: seq<FootRow>, keep: FootRow -> bool)
    requires forall i :: 0 <= i < |fp| ==> 0.0 <= fp[i].frac <= 1.0
    ensures 0.0 <= Sum(FracColumn(Filter(fp, keep))) <= |Filter(fp, keep)| as real
  {
    var rows := Filter(fp, keep);
    var fracs := FracColumn(rows);
    FilterMembers(fp, keep);
    forall i | 0 <= i < |fracs| ensures 0.0 <= fracs[i] <= 1.0 {
      assert rows[i] in fp;
    }
    SumBounds(fracs);
  }

  lemma ScaledBound(total: real, n: real, area: real)
    requires 0.0 <= total <= n
    ensures area >= 0.0 ==> 0.0 <= total * area <= n * area
  {
    if area >= 0.0 {
      ProductNonNegative(total, area);
      ProductNonNegative(n - total, area);
      assert n * area - total * area == (n - total) * area;
    }
  }

  lemma QuotientAtMostOne(a: real, b: real)
    requires 0.0 <= a <= b && b > 0.0
    ensures 0.0 <= a / b <= 1.0
  {
  }

  /** Rows selected from a map with distinct pixels have distinct pixels, and the
      selected pixels satisfy the selection. */
  lemma {:induction false} SelectedPixelsDistinct(fp: seq<FootRow>, keep: FootRow -> bool)
    requires NoDup(PixelColumn(fp))
    ensures NoDup(PixelColumn(Filter(fp, keep)))
    ensures forall i :: 0 <= i < |Filter(fp, keep)| ==> keep(Filter(fp, keep)[i])
  {
    if |fp| > 0 {
      var tail := fp[1..];
      assert NoDup(PixelColumn(tail)) by {
        forall i, j | 0 <= i < j < |tail| ensures tail[i].hpix != tail[j].hpix {
          assert PixelColumn(fp)[i + 1] != PixelColumn(fp)[j + 1];
        }
      }
      SelectedPixelsDistinct(tail, keep);
      if keep(fp[0]) {
        var r := Filter(fp, keep);
        FilterMembers(tail, keep);
        forall i, j | 0 <= i < j < |r| ensures r[i].hpix != r[j].hpix {
          if i == 0 {
            var row := r[j];
            assert row in Filter(tail, keep);
            var k :| 0 <= k < |tail| && tail[k] == row;
            assert PixelColumn(fp)[0] != PixelColumn(fp)[k + 1];
          } else {
            assert PixelColumn(Filter(tail, keep))[i - 1] != PixelColumn(Filter(tail, keep))[j - 1];
          }
        }
      }
    }
  }

  // ---------------------------------------------------------------------
  // disc_coverfrac

  /** Fraction of the inclusive disc pixels present in the footprint map, each
      pixel counted once whatever its covered fraction. An empty disc is a
      division by zero in the source. */
  function DiscCoverfrac(g: Geometry, s: Scheme, c: Sky, radius: real, fp: seq<FootRow>): (r: Result<real>)
    ensures var disc := g.queryDisc(s, c, radius, true);
      && (r.Ok? <==> |disc| > 0)
      && (r.Err? ==> r.failure == ZeroDivision)
      && (r.Ok? ==> 0.0 <= r.value <= 1.0)
      && (r.Ok? ==> (r.value == 1.0 <==> forall p :: p in disc ==> p in PixelColumn(fp)))
      && (r.Ok? ==> (r.value == 0.0 <==> forall p :: p in disc ==> p !in PixelColumn(fp)))
  {
    var disc := g.queryDisc(s, c, radius, true);
    if |disc| == 0 then
      Err(ZeroDivision)
    else
      var covered := |Filter(disc, Inside(PixelColumn(fp)))|;
      CoveredAllOrNone(disc, PixelColumn(fp));
      QuotientExtremes(covered as real, |disc| as real);
      Ok(covered as real / |disc| as real)
  }

  /** The pixels of `disc` present in `pixels` are all of `disc` exactly when every
      disc pixel is present, and none exactly when no disc pixel is. */
  lemma CoveredAllOrNone(disc: seq<Pixel>, pixels: seq<Pixel>)
    ensures |Filter(disc, Inside(pixels))| <= |disc|
    ensures |Filter(disc, Inside(pixels))| == |disc| <==> forall p :: p in disc ==> p in pixels
    ensures |Filter(disc, Inside(pixels))| == 0 <==> forall p :: p in disc ==> p !in pixels
  {
    var present := Inside(pixels);
    FilterKeepsAll(disc, present);
    FilterKeepsNone(disc, present);
    forall i | 0 <= i < |disc| ensures present(disc[i]) <==> disc[i] in pixels {
    }
    if forall p :: p in disc ==> p in pixels {
      forall i | 0 <= i < |disc| ensures present(disc[i]) {
        assert disc[i] in disc;
      }
    }
    if forall p :: p in disc ==> p !in pixels {
      forall i | 0 <= i < |disc| ensures !present(disc[i]) {
        assert disc[i] in disc;
      }
    }
  }

  /** For a valid geometry the cover fraction is the number of distinct disc pixels
      present in the map over the number of disc pixels. */
  lemma DiscCoverfracCounts(g: Geometry, s: Scheme, c: Sky, radius: real, fp: seq<FootRow>)
    requires Valid(g)
    ensures var disc := g.queryDisc(s, c, radius, true);
      var r := DiscCoverfrac(g, s, c, radius, fp);
      r.Ok? ==> r.value * |disc| as real == |set p | p in disc && p in PixelColumn(fp)| as real
  {
    var disc := g.queryDisc(s, c, radius, true);
    if |disc| > 0 {
      var covered := |Filter(disc, Inside(PixelColumn(fp)))|;
      assert DiscCoverfrac(g, s, c, radius, fp) == Ok(covered as real / |disc| as real);
      assert NoDup(disc);
      CoveredPixelsCount(disc, PixelColumn(fp));
      QuotientTimesDivisor(covered as real, |disc| as real);
    }
  }

  /** The disc pixels present in the map, counted without repeats. */
  lemma CoveredPixelsCount(disc: seq<Pixel>, pixels: seq<Pixel>)
    requires NoDup(disc)
    ensures |Filter(disc, Inside(pixels))| == |set p | p in disc && p in pixels|
  {
    var present := Filter(disc, Inside(pixels));
    FilterNoDup(disc, Inside(pixels));
    DistinctCardinality(present);
    FilterMembers(disc, Inside(pixels));
    assert (set p | p in present) == (set p | p in disc && p in pixels);
  }

  lemma QuotientExtremes(a: real, b: real)
    requires 0.0 <= a <= b && b > 0.0
    ensures 0.0 <= a / b <= 1.0
    ensures a / b == 1.0 <==> a == b
    ensures a / b == 0.0 <==> a == 0.0
  {
    QuotientAtMostOne(a, b);
  }

  // ---------------------------------------------------------------------
  // hpx_degrade

  /** Result of `hpx_degrade`: coarse pixels and their covered fractions. */
  datatype Degraded = Degraded(pixels: seq<Pixel>, fracs: seq<real>)

  /** Number of fine pixels per coarse pixel, `(nside_in / nside_out)^2`. */
  function Nsamp(sIn: Scheme, sOut: Scheme): (n: real)
    ensures n > 0.0
  {
    var q := sIn.nside as real / sOut.nside as real;
    ProductPositive(q, q);
    q * q
  }

  /** The counts of the coarse pixels `u` among `parents`, as reals. */
  function CountColumn(parents: seq<Pixel>, u: seq<Pixel>): (r: seq<real>)
    ensures |r| == |u|
    ensures forall i :: 0 <= i < |u| ==> r[i] == Count(parents, u[i]) as real
  {
    seq(|u|, i requires 0 <= i < |u| => Count(parents, u[i]) as real)
  }

  /** `count / nsamp` for each of the coarse pixels `u`. */
  function CountFractions(parents: seq<Pixel>, u: seq<Pixel>, nsamp: real): (r: seq<real>)
    requires nsamp > 0.0
    ensures |r| == |u|
    ensures ScaledBy(r, CountColumn(parents, u), nsamp)
  {
    if |u| == 0 then []
    else
      var count := Count(parents, u[0]) as real;
      var rest := CountFractions(parents, u[1..], nsamp);
      QuotientTimesDivisor(count, nsamp);
      assert CountColumn(parents, u) == [count] + CountColumn(parents, u[1..]);
      ScaledByCons(count / nsamp, rest, count, CountColumn(parents, u[1..]), nsamp);
      [count / nsamp] + rest
  }

  lemma QuotientTimesDivisor(a: real, n: real)
    requires n > 0.0
    ensures (a / n) * n == a
  {
  }

  /** The distinct coarse parents in increasing order (`np.unique` with counts),
      each with the number of fine pixels it received divided by `nsamp`. */
  function DegradeParents(parents: seq<Pixel>, nsamp: real): (r: Degraded)
    requires nsamp > 0.0
    ensures |r.pixels| == |r.fracs|
    ensures StrictlyIncreasing(r.pixels)
    ensures forall p :: p in r.pixels <==> p in parents
    ensures ScaledBy(r.fracs, CountColumn(parents, r.pixels), nsamp)
  {
    var u := Unique(parents);
    Degraded(u, CountFractions(parents, u, nsamp))
  }

  /** Degrade a fine pixel list to the coarse resolution of `sOut`: the coarse
      pixels are the distinct parents of the fine ones, in increasing order. The
      fine fractions play no part. */
  function HpxDegrade(g: Geometry, pixIn: seq<Pixel>, sIn: Scheme, sOut: Scheme): (r: Degraded)
    ensures var parents := g.Parents(sIn, sOut, pixIn);
      && |r.pixels| == |r.fracs|
      && StrictlyIncreasing(r.pixels)
      && (forall p :: p in r.pixels <==> p in parents)
  {
    DegradeParents(g.Parents(sIn, sOut, pixIn), Nsamp(sIn, sOut))
  }

  /** Each degraded fraction times `nsamp` is the number of fine pixels whose
      parent is that coarse pixel. */
  lemma DegradeFractions(g: Geometry, pixIn: seq<Pixel>, sIn: Scheme, sOut: Scheme)
    ensures var d := HpxDegrade(g, pixIn, sIn, sOut);
      ScaledBy(d.fracs, CountColumn(g.Parents(sIn, sOut, pixIn), d.pixels), Nsamp(sIn, sOut))
  {
  }

  lemma {:induction false} CountColumnSum(parents: seq<Pixel>, u: seq<Pixel>)
    ensures Sum(CountColumn(parents, u)) == SumCounts(parents, u) as real
  {
    if |u| > 0 {
      assert CountColumn(parents, u)[1..] == CountColumn(parents, u[1..]);
      CountColumnSum(parents, u[1..]);
    }
  }

  /** The degraded counts account for every input pixel exactly once: the counts
      behind the fractions (`fracs * nsamp`, see `DegradeFractions`) add up to
      `len(pix_in)`. */
  lemma DegradeCountsAllPixels(g: Geometry, pixIn: seq<Pixel>, sIn: Scheme, sOut: Scheme)
    ensures var d := HpxDegrade(g, pixIn, sIn, sOut);
      Sum(CountColumn(g.Parents(sIn, sOut, pixIn), d.pixels)) == |pixIn| as real
  {
    var d := HpxDegrade(g, pixIn, sIn, sOut);
    DegradeCountsCover(g.Parents(sIn, sOut, pixIn), d.pixels);
  }

  /** The counts of all the distinct parents add up to the number of parents. */
  lemma DegradeCountsCover(parents: seq<Pixel>, u: seq<Pixel>)
    requires StrictlyIncreasing(u)
    requires forall p :: p in parents ==> p in u
    ensures Sum(CountColumn(parents, u)) == |parents| as real
  {
    CountColumnSum(parents, u);
    ParentsCovered(parents, u);
  }

  /** A duplicate-free list holding every parent counts each parent once. */
  lemma ParentsCovered(parents: seq<Pixel>, u: seq<Pixel>)
    requires StrictlyIncreasing(u)
    requires forall p :: p in parents ==> p in u
    ensures SumCounts(parents, u) == |parents|
  {
    IncreasingHasNoDup(u);
    forall j | 0 <= j < |parents| ensures parents[j] in u {
      var p := parents[j];
      assert p in parents;
    }
    CountsCover(parents, u);
  }

  /** Every input pixel's parent is one of the degraded pixels, at exactly one position. */
  lemma DegradeParentsListedOnce(g: Geometry, pixIn: seq<Pixel>, sIn: Scheme, sOut: Scheme, j: nat)
    requires j < |pixIn|
    ensures var d := HpxDegrade(g, pixIn, sIn, sOut);
      Count(d.pixels, g.Parent(sIn, sOut, pixIn[j])) == 1
  {
    var d := HpxDegrade(g, pixIn, sIn, sOut);
    var parents := g.Parents(sIn, sOut, pixIn);
    assert parents[j] in parents;
    IncreasingHasNoDup(d.pixels);
    CountOfDistinctMember(d.pixels, parents[j]);
  }
}

=== FILE: members.dfy ===
/** The survey-wide member catalogue: the member rows of every tile, joined to the
    survey id of their cluster and to their tile (`concatenate_members`,
    lib/utils.py). Two versions are modelled: the loop as written, whose id
    columns are only started by the first cluster of the first tile, and the
    evidently intended concatenation. */
module Members {

  import opened Seqs
  import opened Outcomes

  /** A detected cluster of the survey cluster table: its survey-wide id, its tile,
      its index inside the tile (`index_cl_tile`) and its number of members. */
  datatype Cluster = Cluster(id: int, tile: int, index: int, nmem: nat)

  /** A row of a tile's member file, with the in-tile index of its cluster. */
  datatype Member<R> = Member(index: int, row: R)

  /** An output row: the member row with the survey id of its cluster (`id_cl`) and
      its tile (`tile`). */
  datatype Linked<R> = Linked(member: Member<R>, idCl: int, tile: int)

  /** The three columns the loop accumulates: member rows, cluster ids, tiles. */
  datatype Columns<R> = Columns(members: seq<Member<R>>, ids: seq<int>, tiles: seq<int>)

  function InTile(t: int): Cluster -> bool {
    (c: Cluster) => c.tile == t
  }

  function ClusterIndexIs(k: int): Cluster -> bool {
    (c: Cluster) => c.index == k
  }

  function IndexIs<R>(k: int): Member<R> -> bool {
    (m: Member<R>) => m.index == k
  }

  function ClusterIndex(): Cluster -> real {
    (c: Cluster) => c.index as real
  }

  function MemberIndex<R>(): Member<R> -> real {
    (m: Member<R>) => m.index as real
  }

  function Indices(cs: seq<Cluster>): (r: seq<int>)
    ensures |r| == |cs|
    ensures forall i :: 0 <= i < |cs| ==> r[i] == cs[i].index
  {
    seq(|cs|, i requires 0 <= i < |cs| => cs[i].index)
  }

  /** `np.isin(members['index_cl_tile'], clusters_id_in_tile)`. */
  function Listed<R>(idx: seq<int>): Member<R> -> bool {
    (m: Member<R>) => m.index in idx
  }

  function MemberColumn<R>(xs: seq<Linked<R>>): (r: seq<Member<R>>)
    ensures |r| == |xs|
    ensures forall i :: 0 <= i < |xs| ==> r[i] == xs[i].member
  {
    seq(|xs|, i requires 0 <= i < |xs| => xs[i].member)
  }

  // ---------------------------------------------------------------------
  // One tile

  /** The clusters of tile `t` ordered by their in-tile index. */
  function SortedTileClusters(clusters: seq<Cluster>, t: int): seq<Cluster> {
    SortBy(Filter(clusters, InTile(t)), ClusterIndex())
  }

  /** The members of tile `t` whose cluster is one of the tile's clusters, ordered by
      their cluster's in-tile index. */
  function TileRows<R(==,!new)>(t: int, file: seq<Member<R>>, clusters: seq<Cluster>): seq<Member<R>> {
    SortBy(Filter(file, Listed(Indices(Filter(clusters, InTile(t))))), MemberIndex())
  }

  function NmemTotal(cs: seq<Cluster>): nat {
    if |cs| == 0 then 0 else cs[0].nmem + NmemTotal(cs[1..])
  }

  /** The id column of one tile: each cluster's id repeated once per member. */
  function IdBlock(cs: seq<Cluster>): (r: seq<int>)
    ensures |r| == NmemTotal(cs)
  {
    if |cs| == 0 then [] else Repeat(cs[0].id, cs[0].nmem) + IdBlock(cs[1..])
  }

  /** The tile column of one tile: the tile id once per member of each cluster. */
  function TileBlock(t: int, cs: seq<Cluster>): (r: seq<int>)
    ensures |r| == NmemTotal(cs)
    ensures forall i :: 0 <= i < |r| ==> r[i] == t
  {
    if |cs| == 0 then [] else Repeat(t, cs[0].nmem) + TileBlock(t, cs[1..])
  }

  // ---------------------------------------------------------------------
  // The catalogue as intended

  /** The three columns of the tiles `tileIds`, the member file of tile `it` being
      `files[it]`, one tile after the other. */
  function Assemble<R(==,!new)>(tileIds: seq<int>, files: seq<seq<Member<R>>>, clusters: seq<Cluster>): (r: Columns<R>)
    requires |files| >= |tileIds|
    ensures |r.ids| == |r.tiles|
  {
    if |tileIds| == 0 then Columns([], [], [])
    else
      var t := tileIds[0];
      var rest := Assemble(tileIds[1..], files[1..], clusters);
      var cs := SortedTileClusters(clusters, t);
      Columns(TileRows(t, files[0], clusters) + rest.members,
              IdBlock(cs) + rest.ids,
              TileBlock(t, cs) + rest.tiles)
  }

  /** The table built from the three columns. */
  function Link<R>(c: Columns<R>): (r: seq<Linked<R>>)
    requires |c.ids| == |c.members| && |c.tiles| == |c.members|
    ensures |r| == |c.members|
    ensures forall i :: 0 <= i < |r| ==> r[i] == Linked(c.members[i], c.ids[i], c.tiles[i])
  {
    seq(|c.members|, i requires 0 <= i < |c.members| => Linked(c.members[i], c.ids[i], c.tiles[i]))
  }

  /** A member row of tile `it` whose cluster index names a cluster of that tile. */
  ghost predicate Kept<R>(tileIds: seq<int>, files: seq<seq<Member<R>>>, clusters: seq<Cluster>, m: Member<R>) {
    exists it :: 0 <= it < |tileIds| && it < |files| && m in files[it] &&
      m.index in Indices(Filter(clusters, InTile(tileIds[it])))
  }

  /** Setting a new column on a table of `n` rows (astropy's `Table.__setitem__`): a
      column of `n` values is taken as it is, a single value on a table with rows is
      repeated on every row, and any other length is inconsistent with the table. */
  function FitColumn(col: seq<int>, n: nat): (r: Option<seq<int>>)
    ensures r.Some? <==> |col| == n || (|col| == 1 && n > 0)
    ensures r.Some? ==> |r.value| == n
    ensures r.Some? && |col| == n ==> r.value == col
    ensures r.Some? && |col| == 1 ==> forall i :: 0 <= i < n ==> r.value[i] == col[0]
  {
    if |col| == n then Some(col)
    else if |col| == 1 && n > 0 then Some(Repeat(col[0], n))
    else None
  }

  /** The output table: the member rows as a table, then the id column, then the tile
      column set on it. */
  function Attach<R>(c: Columns<R>): (r: Result<seq<Linked<R>>>)
    ensures var n := |c.members|;
      r.Ok? <==> (|c.ids| == n || (|c.ids| == 1 && n > 0)) && (|c.tiles| == n || (|c.tiles| == 1 && n > 0))
    ensures r.Err? ==> r.failure == ColumnLengthMismatch
    ensures r.Ok? ==> MemberColumn(r.value) == c.members
    ensures r.Ok? && |c.ids| == |c.members| && |c.tiles| == |c.members| ==> r.value == Link(c)
    ensures r.Ok? && |c.ids| == 1 ==> forall i :: 0 <= i < |r.value| ==> r.value[i].idCl == c.ids[0]
    ensures r.Ok? && |c.tiles| == 1 ==> forall i :: 0 <= i < |r.value| ==> r.value[i].tile == c.tiles[0]
  {
    var n := |c.members|;
    match (FitColumn(c.ids, n), FitColumn(c.tiles, n))
    case (Some(ids), Some(tiles)) =>
      var r := Link(Columns(c.members, ids, tiles));
      assert MemberColumn(r) == c.members;
      Ok(r)
    case _ => Err(ColumnLengthMismatch)
  }

  function IdColumn<R>(xs: seq<Linked<R>>): (r: seq<int>)
    ensures |r| == |xs|
    ensures forall i :: 0 <= i < |xs| ==> r[i] == xs[i].idCl
  {
    seq(|xs|, i requires 0 <= i < |xs| => xs[i].idCl)
  }

  function TileColumn<R>(xs: seq<Linked<R>>): (r: seq<int>)
    ensures |r| == |xs|
    ensures forall i :: 0 <= i < |xs| ==> r[i] == xs[i].tile
  {
    seq(|xs|, i requires 0 <= i < |xs| => xs[i].tile)
  }

  /** The member block of every tile, in the order of `tileIds`: the tile's kept
      member rows, sorted by cluster index. */
  function MemberBlocks<R(==,!new)>(tileIds: seq<int>, files: seq<seq<Member<R>>>, clusters: seq<Cluster>): (r: seq<seq<Member<R>>>)
    requires |files| >= |tileIds|
    ensures |r| == |tileIds|
    ensures forall it :: 0 <= it < |tileIds| ==>
      var kept := Filter(files[it], Listed(Indices(Filter(clusters, InTile(tileIds[it])))));
      && SortedBy(r[it], MemberIndex())
      && multiset(r[it]) == multiset(kept)
  {
    seq(|tileIds|, it requires 0 <= it < |tileIds| => TileRows(tileIds[it], files[it], clusters))
  }

  /** The id block of every tile: each of its clusters' ids, in cluster-index order,
      once per member. */
  function IdBlocks(tileIds: seq<int>, clusters: seq<Cluster>): (r: seq<seq<int>>)
    ensures |r| == |tileIds|
    ensures forall it :: 0 <= it < |tileIds| ==> |r[it]| == NmemTotal(SortedTileClusters(clusters, tileIds[it]))
  {
    seq(|tileIds|, it requires 0 <= it < |tileIds| => IdBlock(SortedTileClusters(clusters, tileIds[it])))
  }

  /** The tile block of every tile: its id once per member of each of its clusters. */
  function TileBlocks(tileIds: seq<int>, clusters: seq<Cluster>): (r: seq<seq<int>>)
    ensures |r| == |tileIds|
    ensures forall it :: 0 <= it < |tileIds| ==>
      && |r[it]| == NmemTotal(SortedTileClusters(clusters, tileIds[it]))
      && forall j :: 0 <= j < |r[it]| ==> r[it][j] == tileIds[it]
  {
    seq(|tileIds|, it requires 0 <= it < |tileIds| => TileBlock(tileIds[it], SortedTileClusters(clusters, tileIds[it])))
  }

  /** The member column is the tiles' member blocks, one tile after the other. */
  lemma {:induction false} MemberColumnFlatten<R(!new)>(tileIds: seq<int>, files: seq<seq<Member<R>>>, clusters: seq<Cluster>)
    requires |files| >= |tileIds|
    ensures Assemble(tileIds, files, clusters).members == Flatten(MemberBlocks(tileIds, files, clusters))
  {
    if |tileIds| > 0 {
      MemberColumnFlatten(tileIds[1..], files[1..], clusters);
      var mb := MemberBlocks(tileIds, files, clusters);
      assert mb[0] == TileRows(tileIds[0], files[0], clusters);
      assert mb[1..] == MemberBlocks(tileIds[1..], files[1..], clusters);
      assert Flatten(mb) == mb[0] + Flatten(mb[1..]);
    }
  }

  /** The id column is the tiles' id blocks, one tile after the other. */
  lemma {:induction false} IdColumnFlatten<R(!new)>(tileIds: seq<int>, files: seq<seq<Member<R>>>, clusters: seq<Cluster>)
    requires |files| >= |tileIds|
    ensures Assemble(tileIds, files, clusters).ids == Flatten(IdBlocks(tileIds, clusters))
  {
    if |tileIds| > 0 {
      IdColumnFlatten(tileIds[1..], files[1..], clusters);
      var ib := IdBlocks(tileIds, clusters);
      assert ib[1..] == IdBlocks(tileIds[1..], clusters);
      assert Flatten(ib) == ib[0] + Flatten(ib[1..]);
    }
  }

  /** The tile column is the tiles' tile blocks, one tile after the other. */
  lemma {:induction false} TileColumnFlatten<R(!new)>(tileIds: seq<int>, files: seq<seq<Member<R>>>, clusters: seq<Cluster>)
    requires |files| >= |tileIds|
    ensures Assemble(tileIds, files, clusters).tiles == Flatten(TileBlocks(tileIds, clusters))
  {
    if |tileIds| > 0 {
      TileColumnFlatten(tileIds[1..], files[1..], clusters);
      var tb := TileBlocks(tileIds, clusters);
      assert tb[1..] == TileBlocks(tileIds[1..], clusters);
      assert Flatten(tb) == tb[0] + Flatten(tb[1..]);
    }
  }

  /** `concatenate_members` with the id and tile columns started empty. A path list
      shorter than the tile list runs off its end; an id column that neither matches
      the member rows in length nor is a single value broadcast onto them cannot be
      set. The member column is the tiles' blocks of kept rows, tile after tile; the
      id and tile columns are the tiles' id and tile blocks, or their single value
      repeated. */
  function ConcatenateMembers<R(==,!new)>(tileIds: seq<int>, files: seq<seq<Member<R>>>, clusters: seq<Cluster>): (r: Result<seq<Linked<R>>>)
    ensures |files| < |tileIds| ==> r == Err(IndexOutOfRange)
    ensures |files| >= |tileIds| && r.Err? ==> r == Err(ColumnLengthMismatch)
    ensures |tileIds| == 0 ==> r == Ok([])
    ensures |files| >= |tileIds| ==>
      var n := |Flatten(MemberBlocks(tileIds, files, clusters))|;
      var k := |Flatten(IdBlocks(tileIds, clusters))|;
      (r.Ok? <==> k == n || (k == 1 && n > 0))
    ensures |files| >= |tileIds| && r.Ok? ==>
      MemberColumn(r.value) == Flatten(MemberBlocks(tileIds, files, clusters))
    ensures |files| >= |tileIds| && r.Ok? && |Flatten(IdBlocks(tileIds, clusters))| == |r.value| ==>
      IdColumn(r.value) == Flatten(IdBlocks(tileIds, clusters)) &&
      TileColumn(r.value) == Flatten(TileBlocks(tileIds, clusters))
    ensures r.Ok? && |Flatten(IdBlocks(tileIds, clusters))| == 1 ==>
      forall i :: 0 <= i < |r.value| ==> r.value[i].idCl == Flatten(IdBlocks(tileIds, clusters))[0]
    ensures r.Ok? && |Flatten(TileBlocks(tileIds, clusters))| == 1 ==>
      forall i :: 0 <= i < |r.value| ==> r.value[i].tile == Flatten(TileBlocks(tileIds, clusters))[0]
    ensures r.Ok? ==> forall m :: m in MemberColumn(r.value) <==> Kept(tileIds, files, clusters, m)
  {
    if |files| < |tileIds| then Err(IndexOutOfRange)
    else
      var a := Assemble(tileIds, files, clusters);
      AssembledMembers(tileIds, files, clusters);
      MemberColumnFlatten(tileIds, files, clusters);
      IdColumnFlatten(tileIds, files, clusters);
      TileColumnFlatten(tileIds, files, clusters);
      Attach(a)
  }

  /** A single tile whose one cluster, with `nmem` 1, is named by two member rows: the
      one-value id column is broadcast onto both rows. */
  lemma SingleIdBroadcast()
    ensures var r := ConcatenateMembers([0], [[Member(0, 5), Member(0, 6)]], [Cluster(7, 0, 0, 1)]);
      && r.Ok? && |r.value| == 2
      && r.value[0].idCl == 7 && r.value[1].idCl == 7
      && r.value[0].tile == 0 && r.value[1].tile == 0
  {
    BroadcastSucceeds();
    BroadcastIds();
    BroadcastTiles();
  }

  lemma BroadcastIds()
    ensures var r := ConcatenateMembers([0], [[Member(0, 5), Member(0, 6)]], [Cluster(7, 0, 0, 1)]);
      r.Ok? ==> forall i :: 0 <= i < |r.value| ==> r.value[i].idCl == 7
  {
    BroadcastBlocks();
  }

  lemma BroadcastTiles()
    ensures var r := ConcatenateMembers([0], [[Member(0, 5), Member(0, 6)]], [Cluster(7, 0, 0, 1)]);
      r.Ok? ==> forall i :: 0 <= i < |r.value| ==> r.value[i].tile == 0
  {
    BroadcastBlocks();
  }

  lemma BroadcastSucceeds()
    ensures var r := ConcatenateMembers([0], [[Member(0, 5), Member(0, 6)]], [Cluster(7, 0, 0, 1)]);
      r.Ok? && |r.value| == 2
  {
    BroadcastBlocks();
    var r := ConcatenateMembers([0], [[Member(0, 5), Member(0, 6)]], [Cluster(7, 0, 0, 1)]);
    assert |r.value| == |MemberColumn(r.value)|;
  }

  lemma BroadcastBlocks()
    ensures var clusters := [Cluster(7, 0, 0, 1)];
      && Flatten(IdBlocks([0], clusters)) == [7]
      && Flatten(TileBlocks([0], clusters)) == [0]
      && |Flatten(MemberBlocks([0], [[Member(0, 5), Member(0, 6)]], clusters))| == 2
  {
    BroadcastIdBlocks();
    BroadcastMemberBlocks();
  }

  lemma BroadcastIdBlocks()
    ensures var clusters := [Cluster(7, 0, 0, 1)];
      && Flatten(IdBlocks([0], clusters)) == [7]
      && Flatten(TileBlocks([0], clusters)) == [0]
  {
    BroadcastTile();
    BroadcastIdColumn();
    BroadcastTileColumn();
  }

  lemma BroadcastIdColumn()
    requires IdBlock(SortedTileClusters([Cluster(7, 0, 0, 1)], 0)) == [7]
    ensures Flatten(IdBlocks([0], [Cluster(7, 0, 0, 1)])) == [7]
  {
    var ids := IdBlocks([0], [Cluster(7, 0, 0, 1)]);
    assert ids == [[7]];
    assert Flatten(ids) == [7] + Flatten(ids[1..]);
  }

  lemma BroadcastTileColumn()
    requires TileBlock(0, SortedTileClusters([Cluster(7, 0, 0, 1)], 0)) == [0]
    ensures Flatten(TileBlocks([0], [Cluster(7, 0, 0, 1)])) == [0]
  {
    var tiles := TileBlocks([0], [Cluster(7, 0, 0, 1)]);
    assert tiles == [[0]];
    assert Flatten(tiles) == [0] + Flatten(tiles[1..]);
  }

  lemma BroadcastMemberBlocks()
    ensures |Flatten(MemberBlocks([0], [[Member(0, 5), Member(0, 6)]], [Cluster(7, 0, 0, 1)]))| == 2
  {
    var file := [Member(0, 5), Member(0, 6)];
    var clusters := [Cluster(7, 0, 0, 1)];
    BroadcastTile();
    var ms := MemberBlocks([0], [file], clusters);
    assert Flatten(ms) == ms[0] + Flatten(ms[1..]);
  }

  lemma BroadcastTile()
    ensures var clusters := [Cluster(7, 0, 0, 1)];
      && SortedTileClusters(clusters, 0) == clusters
      && IdBlock(clusters) == [7] && TileBlock(0, clusters) == [0]
      && |TileRows(0, [Member(0, 5), Member(0, 6)], clusters)| == 2
  {
    var file := [Member(0, 5), Member(0, 6)];
    var clusters := [Cluster(7, 0, 0, 1)];
    assert Filter(clusters, InTile(0)) == clusters;
    assert Indices(clusters) == [0];
    assert Filter(file, Listed(Indices(clusters))) == file;
    var sc := SortedTileClusters(clusters, 0);
    assert |sc| == |multiset(sc)| == 1;
    assert sc[0] in multiset(clusters);
    BlocksOfOne(clusters, 0);
    assert |multiset(TileRows(0, file, clusters))| == 2;
  }

  /** Membership in one tile's block. */
  lemma TileRowsMembers<R(!new)>(t: int, file: seq<Member<R>>, clusters: seq<Cluster>, m: Member<R>)
    ensures m in TileRows(t, file, clusters) <==> m in file && m.index in Indices(Filter(clusters, InTile(t)))
  {
    var kept := Filter(file, Listed(Indices(Filter(clusters, InTile(t)))));
    SortByMembers(kept, MemberIndex(), m);
    FilterMember(file, Listed(Indices(Filter(clusters, InTile(t)))), m);
  }

  lemma {:induction false} AssembledMembers<R(!new)>(tileIds: seq<int>, files: seq<seq<Member<R>>>, clusters: seq<Cluster>)
    requires |files| >= |tileIds|
    ensures forall m :: m in Assemble(tileIds, files, clusters).members <==> Kept(tileIds, files, clusters, m)
  {
    if |tileIds| > 0 {
      AssembledMembers(tileIds[1..], files[1..], clusters);
      forall m ensures m in Assemble(tileIds, files, clusters).members <==> Kept(tileIds, files, clusters, m) {
        TileRowsMembers(tileIds[0], files[0], clusters, m);
        if Kept(tileIds[1..], files[1..], clusters, m) {
          var it :| 0 <= it < |tileIds[1..]| && it < |files[1..]| && m in files[1..][it] &&
            m.index in Indices(Filter(clusters, InTile(tileIds[1..][it])));
          assert m in files[it + 1] && tileIds[it + 1] == tileIds[1..][it];
        }
        if Kept(tileIds, files, clusters, m) {
          var it :| 0 <= it < |tileIds| && it < |files| && m in files[it] &&
            m.index in Indices(Filter(clusters, InTile(tileIds[it])));
          if it > 0 {
            assert files[1..][it - 1] == files[it] && tileIds[1..][it - 1] == tileIds[it];
          }
        }
      }
    } else {
      assert forall m :: !Kept(tileIds, files, clusters, m);
    }
  }

  // ---------------------------------------------------------------------
  // The loop as written

  /** What the loop carries from one tile to the next. `final_members` is bound at
      the first tile; `ids_for_members` and `tile_for_members` stay unbound until the
      first cluster of the first tile binds them. */
  datatype Acc<R> = Acc(final: seq<Member<R>>, ids: Option<seq<int>>, tiles: Option<seq<int>>)

  /** The inner loop over the sorted clusters of tile `t`; `first` is `it == 0`.
      Its first pass binds the two columns when `first` holds and appends to them
      otherwise, which fails while they are unbound. */
  function ClusterLoop(cs: seq<Cluster>, t: int, first: bool, ids: Option<seq<int>>, tiles: Option<seq<int>>): (r: Result<(Option<seq<int>>, Option<seq<int>>)>)
    ensures |cs| == 0 ==> r == Ok((ids, tiles))
    ensures |cs| > 0 && first ==> r == Ok((Some(IdBlock(cs)), Some(TileBlock(t, cs))))
    ensures |cs| > 0 && !first && ids.Some? && tiles.Some? ==>
              r == Ok((Some(ids.value + IdBlock(cs)), Some(tiles.value + TileBlock(t, cs))))
    ensures |cs| > 0 && !first && ids.None? ==> r == Err(UnboundVariable)
    decreases |cs|
  {
    if |cs| == 0 then Ok((ids, tiles))
    else if first then
      BlocksOfOne(cs, t);
      ClusterLoop(cs[1..], t, false, Some(Repeat(cs[0].id, cs[0].nmem)), Some(Repeat(t, cs[0].nmem)))
    else if ids.None? || tiles.None? then Err(UnboundVariable)
    else
      BlocksOfOne(cs, t);
      AppendAssociates(ids.value, Repeat(cs[0].id, cs[0].nmem), IdBlock(cs[1..]));
      AppendAssociates(tiles.value, Repeat(t, cs[0].nmem), TileBlock(t, cs[1..]));
      ClusterLoop(cs[1..], t, false, Some(ids.value + Repeat(cs[0].id, cs[0].nmem)), Some(tiles.value + Repeat(t, cs[0].nmem)))
  }

  /** The blocks of a single cluster are its own repetitions. */
  lemma BlocksOfOne(cs: seq<Cluster>, t: int)
    requires |cs| > 0
    ensures |cs| == 1 ==> IdBlock(cs) == Repeat(cs[0].id, cs[0].nmem) && TileBlock(t, cs) == Repeat(t, cs[0].nmem)
  {
    if |cs| == 1 {
      assert IdBlock(cs) == Repeat(cs[0].id, cs[0].nmem) + [];
      assert TileBlock(t, cs) == Repeat(t, cs[0].nmem) + [];
    }
  }

  /** The outer loop from tile `it` on. */
  function TileLoop<R(==,!new)>(it: nat, tileIds: seq<int>, files: seq<seq<Member<R>>>, clusters: seq<Cluster>, acc: Acc<R>): Result<Acc<R>>
    requires it <= |tileIds|
    decreases |tileIds| - it
  {
    if it == |tileIds| then Ok(acc)
    else if it >= |files| then Err(IndexOutOfRange)
    else
      var t := tileIds[it];
      var rows := TileRows(t, files[it], clusters);
      var final := if it == 0 then rows else acc.final + rows;
      match ClusterLoop(SortedTileClusters(clusters, t), t, it == 0, acc.ids, acc.tiles)
      case Err(e) => Err(e)
      case Ok(p) => TileLoop(it + 1, tileIds, files, clusters, Acc(final, p.0, p.1))
  }

  /** `concatenate_members` as written. With no tile at all `final_members` is never
      bound; with no cluster in the first tile the id column is never started. */
  function ConcatenateMembersAsWritten<R(==,!new)>(tileIds: seq<int>, files: seq<seq<Member<R>>>, clusters: seq<Cluster>): (r: Result<seq<Linked<R>>>)
    ensures |tileIds| == 0 ==> r == Err(UnboundVariable)
  {
    match TileLoop(0, tileIds, files, clusters, Acc([], None, None))
    case Err(e) => Err(e)
    case Ok(acc) =>
      if |tileIds| == 0 || acc.ids.None? || acc.tiles.None? then Err(UnboundVariable)
      else Attach(Columns(acc.final, acc.ids.value, acc.tiles.value))
  }

  /** Once the columns are bound, the rest of the loop appends the intended blocks of
      the remaining tiles. */
  lemma {:induction false} TileLoopAppends<R(!new)>(it: nat, tileIds: seq<int>, files: seq<seq<Member<R>>>, clusters: seq<Cluster>, acc: Acc<R>)
    requires 0 < it <= |tileIds| <= |files|
    requires acc.ids.Some? && acc.tiles.Some?
    ensures var a := Assemble(tileIds[it..], files[it..], clusters);
      TileLoop(it, tileIds, files, clusters, acc) ==
        Ok(Acc(acc.final + a.members, Some(acc.ids.value + a.ids), Some(acc.tiles.value + a.tiles)))
    decreases |tileIds| - it
  {
    var a := Assemble(tileIds[it..], files[it..], clusters);
    if it == |tileIds| {
      assert a == Columns([], [], []);
      assert acc.final + [] == acc.final && acc.ids.value + [] == acc.ids.value && acc.tiles.value + [] == acc.tiles.value;
    } else {
      var t := tileIds[it];
      var cs := SortedTileClusters(clusters, t);
      var rows := TileRows(t, files[it], clusters);
      var next := Acc(acc.final + rows, Some(acc.ids.value + IdBlock(cs)), Some(acc.tiles.value + TileBlock(t, cs)));
      TileLoopStep(it, tileIds, files, clusters, acc);
      TileLoopAppends(it + 1, tileIds, files, clusters, next);
      AssembleFrom(it, tileIds, files, clusters);
      var b := Assemble(tileIds[it + 1..], files[it + 1..], clusters);
      AppendAssociates(acc.final, rows, b.members);
      AppendAssociates(acc.ids.value, IdBlock(cs), b.ids);
      AppendAssociates(acc.tiles.value, TileBlock(t, cs), b.tiles);
    }
  }

  lemma AppendAssociates<T>(x: seq<T>, y: seq<T>, z: seq<T>)
    ensures x + y + z == x + (y + z)
  {
  }

  /** One pass of the outer loop with the columns bound appends the tile's blocks. */
  lemma TileLoopStep<R(!new)>(it: nat, tileIds: seq<int>, files: seq<seq<Member<R>>>, clusters: seq<Cluster>, acc: Acc<R>)
    requires 0 < it < |tileIds| <= |files|
    requires acc.ids.Some? && acc.tiles.Some?
    ensures var t := tileIds[it];
      var cs := SortedTileClusters(clusters, t);
      TileLoop(it, tileIds, files, clusters, acc) ==
        TileLoop(it + 1, tileIds, files, clusters,
                 Acc(acc.final + TileRows(t, files[it], clusters),
                     Some(acc.ids.value + IdBlock(cs)), Some(acc.tiles.value + TileBlock(t, cs))))
  {
    var t := tileIds[it];
    var cs := SortedTileClusters(clusters, t);
    if |cs| == 0 {
      assert acc.ids.value + IdBlock(cs) == acc.ids.value;
      assert acc.tiles.value + TileBlock(t, cs) == acc.tiles.value;
    }
  }

  /** `Assemble` over the tiles from `it` on, unfolded once. */
  lemma AssembleFrom<R(!new)>(it: nat, tileIds: seq<int>, files: seq<seq<Member<R>>>, clusters: seq<Cluster>)
    requires it < |tileIds| <= |files|
    ensures var t := tileIds[it];
      var cs := SortedTileClusters(clusters, t);
      var b := Assemble(tileIds[it + 1..], files[it + 1..], clusters);
      Assemble(tileIds[it..], files[it..], clusters) ==
        Columns(TileRows(t, files[it], clusters) + b.members, IdBlock(cs) + b.ids, TileBlock(t, cs) + b.tiles)
  {
    assert tileIds[it..][1..] == tileIds[it + 1..] && files[it..][1..] == files[it + 1..];
    assert tileIds[it..][0] == tileIds[it] && files[it..][0] == files[it];
  }

  /** While the columns are unbound, the rest of the loop either leaves them unbound
      or fails on the first cluster it meets. */
  lemma {:induction false} TileLoopUnbound<R(!new)>(it: nat, tileIds: seq<int>, files: seq<seq<Member<R>>>, clusters: seq<Cluster>, acc: Acc<R>)
    requires 0 < it <= |tileIds| <= |files|
    requires acc.ids.None?
    ensures var r := TileLoop(it, tileIds, files, clusters, acc);
      r == Err(UnboundVariable) || (r.Ok? && r.value.ids.None?)
    decreases |tileIds| - it
  {
    if it < |tileIds| {
      var t := tileIds[it];
      var cs := SortedTileClusters(clusters, t);
      if |cs| == 0 {
        var next := Acc(acc.final + TileRows(t, files[it], clusters), acc.ids, acc.tiles);
        assert TileLoop(it, tileIds, files, clusters, acc) == TileLoop(it + 1, tileIds, files, clusters, next);
        TileLoopUnbound(it + 1, tileIds, files, clusters, next);
      }
    }
  }

  /** The first tile's clusters, sorted, are empty exactly when the tile has none. */
  lemma FirstTileClusters(clusters: seq<Cluster>, t: int)
    ensures |SortedTileClusters(clusters, t)| == 0 <==> forall c :: c in clusters ==> c.tile != t
  {
    var raw := Filter(clusters, InTile(t));
    FilterMembers(clusters, InTile(t));
    assert |SortedTileClusters(clusters, t)| == |multiset(raw)| == |raw|;
    if |raw| > 0 {
      assert raw[0] in raw;
    }
  }

  /** When the first tile has a cluster, the code as written builds the intended
      catalogue. */
  lemma AsWrittenAgreesWhenFirstTileHasClusters<R(!new)>(tileIds: seq<int>, files: seq<seq<Member<R>>>, clusters: seq<Cluster>)
    requires 0 < |tileIds| <= |files|
    requires exists c :: c in clusters && c.tile == tileIds[0]
    ensures ConcatenateMembersAsWritten(tileIds, files, clusters) == ConcatenateMembers(tileIds, files, clusters)
  {
    var t := tileIds[0];
    var cs := SortedTileClusters(clusters, t);
    FirstTileClusters(clusters, t);
    var rows := TileRows(t, files[0], clusters);
    var first := Acc(rows, Some(IdBlock(cs)), Some(TileBlock(t, cs)));
    assert TileLoop(0, tileIds, files, clusters, Acc([], None, None)) == TileLoop(1, tileIds, files, clusters, first);
    TileLoopAppends(1, tileIds, files, clusters, first);
  }

  /** When the first tile has no cluster, the code as written never produces a
      catalogue, whatever the other tiles hold. */
  lemma AsWrittenFailsWhenFirstTileHasNone<R(!new)>(tileIds: seq<int>, files: seq<seq<Member<R>>>, clusters: seq<Cluster>)
    requires 0 < |tileIds| <= |files|
    requires forall c :: c in clusters ==> c.tile != tileIds[0]
    ensures ConcatenateMembersAsWritten(tileIds, files, clusters) == Err(UnboundVariable)
  {
    var t := tileIds[0];
    FirstTileClusters(clusters, t);
    var first := Acc(TileRows(t, files[0], clusters), None, None);
    assert TileLoop(0, tileIds, files, clusters, Acc([], None, None)) == TileLoop(1, tileIds, files, clusters, first);
    TileLoopUnbound(1, tileIds, files, clusters, first);
  }

  /** A two-tile survey whose only cluster, with one member, sits in the second tile:
      the code as written fails on the unbound id column, the intended catalogue
      holds the one member under its cluster's id. */
  lemma FirstTileWithoutClusterCounterexample()
    ensures var tileIds := [0, 1];
      var files: seq<seq<Member<int>>> := [[], [Member(0, 5)]];
      var clusters := [Cluster(7, 1, 0, 1)];
      && ConcatenateMembersAsWritten(tileIds, files, clusters) == Err(UnboundVariable)
      && ConcatenateMembers(tileIds, files, clusters) == Ok([Linked(Member(0, 5), 7, 1)])
  {
    var tileIds := [0, 1];
    var files: seq<seq<Member<int>>> := [[], [Member(0, 5)]];
    var clusters := [Cluster(7, 1, 0, 1)];
    AsWrittenFailsWhenFirstTileHasNone(tileIds, files, clusters);
    CounterexampleCatalogue();
  }

  lemma CounterexampleCatalogue()
    ensures ConcatenateMembers([0, 1], [[], [Member(0, 5)]], [Cluster(7, 1, 0, 1)]) == Ok([Linked(Member(0, 5), 7, 1)])
  {
    CounterexampleColumns();
    CounterexampleAttach();
  }

  lemma CounterexampleAttach()
    ensures Attach(Columns([Member(0, 5)], [7], [1])) == Ok([Linked(Member(0, 5), 7, 1)])
  {
    assert Link(Columns([Member(0, 5)], [7], [1])) == [Linked(Member(0, 5), 7, 1)];
  }

  lemma CounterexampleColumns()
    ensures Assemble([0, 1], [[], [Member(0, 5)]], [Cluster(7, 1, 0, 1)]) == Columns([Member(0, 5)], [7], [1])
  {
    var tileIds := [0, 1];
    var files: seq<seq<Member<int>>> := [[], [Member(0, 5)]];
    CounterexampleTileZero();
    CounterexampleSecondTile();
    assert tileIds[1..] == [1] && files[1..] == [[Member(0, 5)]];
  }

  lemma CounterexampleSecondTile()
    ensures Assemble([1], [[Member(0, 5)]], [Cluster(7, 1, 0, 1)]) == Columns([Member(0, 5)], [7], [1])
  {
    var clusters := [Cluster(7, 1, 0, 1)];
    CounterexampleTileOne();
    assert Assemble<int>([1][1..], [[Member(0, 5)]][1..], clusters) == Columns([], [], []);
  }

  lemma CounterexampleTileZero()
    ensures SortedTileClusters([Cluster(7, 1, 0, 1)], 0) == []
    ensures TileRows<int>(0, [], [Cluster(7, 1, 0, 1)]) == []
  {
    assert Filter([Cluster(7, 1, 0, 1)], InTile(0)) == [];
  }

  lemma CounterexampleTileOne()
    ensures SortedTileClusters([Cluster(7, 1, 0, 1)], 1) == [Cluster(7, 1, 0, 1)]
    ensures TileRows(1, [Member(0, 5)], [Cluster(7, 1, 0, 1)]) == [Member(0, 5)]
    ensures IdBlock([Cluster(7, 1, 0, 1)]) == [7] && TileBlock(1, [Cluster(7, 1, 0, 1)]) == [1]
  {
    var clusters := [Cluster(7, 1, 0, 1)];
    assert Filter(clusters, InTile(1)) == clusters;
    assert Indices(clusters) == [0];
    assert Filter([Member(0, 5)], Listed(Indices(clusters))) == [Member(0, 5)];
    BlocksOfOne(clusters, 1);
  }

  // ---------------------------------------------------------------------
  // Consistent inputs

  /** The tile-level contract the loop relies on: no two clusters of tile `t` share an
      in-tile index, and each cluster's `nmem` is the number of rows of the tile's
      member file that name it. */
  ghost predicate TileConsistent<R>(t: int, file: seq<Member<R>>, clusters: seq<Cluster>) {
    var cs := Filter(clusters, InTile(t));
    && (forall k :: |Filter(cs, ClusterIndexIs(k))| <= 1)
    && (forall c :: c in cs ==> c.nmem == |Filter(file, IndexIs(c.index))|)
  }

  /** An output row whose member comes from the file of its tile and whose id is the
      id of the cluster of that tile with the member's in-tile index. */
  ghost predicate LinkedRight<R>(x: Linked<R>, tileIds: seq<int>, files: seq<seq<Member<R>>>, clusters: seq<Cluster>) {
    && (exists it :: 0 <= it < |tileIds| && it < |files| && x.member in files[it] && x.tile == tileIds[it])
    && (exists c :: c in clusters && c.tile == x.tile && c.index == x.member.index && c.id == x.idCl)
  }

  /** With consistent tiles the catalogue is built, and every member row carries the
      id of its own cluster and its own tile. */
  lemma ConsistentTilesLink<R(!new)>(tileIds: seq<int>, files: seq<seq<Member<R>>>, clusters: seq<Cluster>)
    requires |files| >= |tileIds|
    requires forall it :: 0 <= it < |tileIds| ==> TileConsistent(tileIds[it], files[it], clusters)
    ensures var r := ConcatenateMembers(tileIds, files, clusters);
      && r.Ok?
      && forall x :: x in r.value ==> LinkedRight(x, tileIds, files, clusters)
  {
    AssembleAligned(tileIds, files, clusters);
  }

  lemma {:induction false} AssembleAligned<R(!new)>(tileIds: seq<int>, files: seq<seq<Member<R>>>, clusters: seq<Cluster>)
    requires |files| >= |tileIds|
    requires forall it :: 0 <= it < |tileIds| ==> TileConsistent(tileIds[it], files[it], clusters)
    ensures var a := Assemble(tileIds, files, clusters);
      && |a.ids| == |a.members|
      && forall j :: 0 <= j < |a.members| ==> LinkedRight(Linked(a.members[j], a.ids[j], a.tiles[j]), tileIds, files, clusters)
  {
    if |tileIds| > 0 {
      assert TileConsistent(tileIds[0], files[0], clusters);
      TileAligned(tileIds[0], files[0], clusters);
      AssembleAligned(tileIds[1..], files[1..], clusters);
      var ms := TileRows(tileIds[0], files[0], clusters);
      var a := Assemble(tileIds, files, clusters);
      forall j | 0 <= j < |a.members|
        ensures LinkedRight(Linked(a.members[j], a.ids[j], a.tiles[j]), tileIds, files, clusters)
      {
        if j < |ms| {
          AlignedHead(tileIds, files, clusters, j);
        } else {
          AlignedTail(tileIds, files, clusters, j);
        }
      }
    }
  }

  /** A row of the first tile's block is linked right. */
  lemma AlignedHead<R(!new)>(tileIds: seq<int>, files: seq<seq<Member<R>>>, clusters: seq<Cluster>, j: nat)
    requires 0 < |tileIds| <= |files|
    requires TileConsistent(tileIds[0], files[0], clusters)
    requires j < |TileRows(tileIds[0], files[0], clusters)|
    ensures var a := Assemble(tileIds, files, clusters);
      && j < |a.members| && j < |a.ids| && j < |a.tiles|
      && LinkedRight(Linked(a.members[j], a.ids[j], a.tiles[j]), tileIds, files, clusters)
  {
    var t := tileIds[0];
    var cs := SortedTileClusters(clusters, t);
    var ms := TileRows(t, files[0], clusters);
    var a := Assemble(tileIds, files, clusters);
    TileAligned(t, files[0], clusters);
    assert a.members[j] == ms[j] && a.ids[j] == IdBlock(cs)[j] && a.tiles[j] == t;
  }

  /** A row past the first tile's block is a row of the rest, linked right there. */
  lemma AlignedTail<R(!new)>(tileIds: seq<int>, files: seq<seq<Member<R>>>, clusters: seq<Cluster>, j: nat)
    requires 0 < |tileIds| <= |files|
    requires var rest := Assemble(tileIds[1..], files[1..], clusters);
      && |rest.ids| == |rest.members|
      && forall j :: 0 <= j < |rest.members| ==>
           LinkedRight(Linked(rest.members[j], rest.ids[j], rest.tiles[j]), tileIds[1..], files[1..], clusters)
    requires TileConsistent(tileIds[0], files[0], clusters)
    requires |TileRows(tileIds[0], files[0], clusters)| <= j < |Assemble(tileIds, files, clusters).members|
    ensures var a := Assemble(tileIds, files, clusters);
      && j < |a.ids| && j < |a.tiles|
      && LinkedRight(Linked(a.members[j], a.ids[j], a.tiles[j]), tileIds, files, clusters)
  {
    var t := tileIds[0];
    var cs := SortedTileClusters(clusters, t);
    var ms := TileRows(t, files[0], clusters);
    var rest := Assemble(tileIds[1..], files[1..], clusters);
    var a := Assemble(tileIds, files, clusters);
    TileAligned(t, files[0], clusters);
    var j' := j - |ms|;
    assert a.members[j] == rest.members[j'] && a.ids[j] == rest.ids[j'] && a.tiles[j] == rest.tiles[j'];
    LinkedRightShift(Linked(rest.members[j'], rest.ids[j'], rest.tiles[j']), tileIds, files, clusters);
  }

  lemma LinkedRightShift<R>(x: Linked<R>, tileIds: seq<int>, files: seq<seq<Member<R>>>, clusters: seq<Cluster>)
    requires |tileIds| > 0 && |files| > 0
    requires LinkedRight(x, tileIds[1..], files[1..], clusters)
    ensures LinkedRight(x, tileIds, files, clusters)
  {
    var it :| 0 <= it < |tileIds[1..]| && it < |files[1..]| && x.member in files[1..][it] && x.tile == tileIds[1..][it];
    assert x.member in files[it + 1] && x.tile == tileIds[it + 1];
  }

  /** One consistent tile: its id block lines up with its sorted kept members. */
  lemma TileAligned<R(!new)>(t: int, file: seq<Member<R>>, clusters: seq<Cluster>)
    requires TileConsistent(t, file, clusters)
    ensures var cs := SortedTileClusters(clusters, t);
      var ms := TileRows(t, file, clusters);
      && |IdBlock(cs)| == |ms|
      && forall j :: 0 <= j < |ms| ==>
           && ms[j] in file
           && exists c :: c in clusters && c.tile == t && c.index == ms[j].index && c.id == IdBlock(cs)[j]
  {
    var raw := Filter(clusters, InTile(t));
    var cs := SortBy(raw, ClusterIndex());
    var kept := Filter(file, Listed(Indices(raw)));
    var ms := SortBy(kept, MemberIndex());
    forall k ensures |Filter(cs, ClusterIndexIs(k))| <= 1 {
      FilterCountPermutation(cs, raw, ClusterIndexIs(k));
    }
    forall j | 0 <= j < |ms| ensures ms[j].index in Indices(cs) && ms[j] in file {
      KeptMemberListed(t, file, clusters, ms[j]);
    }
    forall k | 0 <= k < |cs| ensures cs[k].nmem == |Filter(ms, IndexIs(cs[k].index))| {
      ClusterCount(t, file, clusters, cs[k]);
    }
    AlignBlock(ms, cs);
    forall j | 0 <= j < |ms|
      ensures exists c :: c in clusters && c.tile == t && c.index == ms[j].index && c.id == IdBlock(cs)[j]
    {
      var k :| 0 <= k < |cs| && Indices(cs)[k] == ms[j].index;
      assert cs[k] in multiset(raw);
      FilterMember(clusters, InTile(t), cs[k]);
    }
  }

  /** A kept member is a row of the file and names a cluster of the tile. */
  lemma KeptMemberListed<R(!new)>(t: int, file: seq<Member<R>>, clusters: seq<Cluster>, m: Member<R>)
    requires m in TileRows(t, file, clusters)
    ensures m in file && m.index in Indices(SortedTileClusters(clusters, t))
  {
    var raw := Filter(clusters, InTile(t));
    var cs := SortedTileClusters(clusters, t);
    TileRowsMembers(t, file, clusters, m);
    var k :| 0 <= k < |raw| && Indices(raw)[k] == m.index;
    assert raw[k] in multiset(cs);
    var k' :| 0 <= k' < |cs| && cs[k'] == raw[k];
    assert Indices(cs)[k'] == m.index;
  }

  /** In a consistent tile, each cluster's `nmem` counts its rows among the sorted
      kept members. */
  lemma ClusterCount<R(!new)>(t: int, file: seq<Member<R>>, clusters: seq<Cluster>, c: Cluster)
    requires TileConsistent(t, file, clusters)
    requires c in SortedTileClusters(clusters, t)
    ensures c.nmem == |Filter(TileRows(t, file, clusters), IndexIs(c.index))|
  {
    var raw := Filter(clusters, InTile(t));
    var kept := Filter(file, Listed(Indices(raw)));
    assert c in multiset(raw);
    var k :| 0 <= k < |raw| && raw[k] == c;
    assert Indices(raw)[k] == c.index;
    FilterCountPermutation(TileRows(t, file, clusters), kept, IndexIs(c.index));
    FilterOfFilter(file, Listed(Indices(raw)), IndexIs(c.index));
  }

  /** The heart of the join: with sorted members, sorted clusters of distinct indices,
      every member naming a cluster and each cluster's count matching its members,
      the id block gives each member the id of the cluster it names. */
  lemma {:induction false} AlignBlock<R>(ms: seq<Member<R>>, cs: seq<Cluster>)
    requires SortedBy(ms, MemberIndex()) && SortedBy(cs, ClusterIndex())
    requires forall k :: |Filter(cs, ClusterIndexIs(k))| <= 1
    requires forall j :: 0 <= j < |ms| ==> ms[j].index in Indices(cs)
    requires forall k :: 0 <= k < |cs| ==> cs[k].nmem == |Filter(ms, IndexIs(cs[k].index))|
    ensures |IdBlock(cs)| == |ms|
    ensures forall j, k :: 0 <= j < |ms| && 0 <= k < |cs| && cs[k].index == ms[j].index ==> IdBlock(cs)[j] == cs[k].id
    decreases |cs|
  {
    if |cs| == 0 {
      SomeIndexListed(ms, Indices(cs));
    } else {
      var n0 := cs[0].nmem;
      MembersAtLeastFirst(ms, cs);
      SortedSplit(ms, cs[0].index);
      TailAbove(cs);
      TailDistinct(cs);
      RestListed(ms, cs, n0);
      RestCounts(ms, cs, n0);
      SortedSuffix(ms, n0, MemberIndex());
      SortedSuffix(cs, 1, ClusterIndex());
      AlignBlock(ms[n0..], cs[1..]);
      AlignStep(ms, cs);
    }
  }

  /** Members that all name a listed index need a non-empty list. */
  lemma SomeIndexListed<R>(ms: seq<Member<R>>, idx: seq<int>)
    requires forall j :: 0 <= j < |ms| ==> ms[j].index in idx
    ensures |ms| > 0 ==> |idx| > 0
  {
    if |ms| > 0 {
      assert ms[0].index in idx;
    }
  }

  /** Putting the first cluster's block in front of the tail's aligned block. */
  lemma AlignStep<R>(ms: seq<Member<R>>, cs: seq<Cluster>)
    requires |cs| > 0 && cs[0].nmem <= |ms|
    requires forall j :: 0 <= j < cs[0].nmem ==> ms[j].index == cs[0].index
    requires forall j :: cs[0].nmem <= j < |ms| ==> ms[j].index > cs[0].index
    requires forall k :: 1 <= k < |cs| ==> cs[k].index > cs[0].index
    requires |IdBlock(cs[1..])| == |ms[cs[0].nmem..]|
    requires forall j, k :: 0 <= j < |ms[cs[0].nmem..]| && 0 <= k < |cs[1..]| && cs[1..][k].index == ms[cs[0].nmem..][j].index ==>
               IdBlock(cs[1..])[j] == cs[1..][k].id
    ensures |IdBlock(cs)| == |ms|
    ensures forall j, k :: 0 <= j < |ms| && 0 <= k < |cs| && cs[k].index == ms[j].index ==> IdBlock(cs)[j] == cs[k].id
  {
    var n0 := cs[0].nmem;
    var block := IdBlock(cs);
    BlockSplit(cs);
    forall j, k | 0 <= j < |ms| && 0 <= k < |cs| && cs[k].index == ms[j].index
      ensures block[j] == cs[k].id
    {
      if j >= n0 {
        AlignTailEntry(ms, cs, j, k);
      }
    }
  }

  /** The id block of several clusters: the first cluster's ids, then the rest's block. */
  lemma {:induction false} BlockSplit(cs: seq<Cluster>)
    requires |cs| > 0
    ensures forall j :: 0 <= j < cs[0].nmem ==> IdBlock(cs)[j] == cs[0].id
    ensures forall j :: cs[0].nmem <= j < |IdBlock(cs)| ==> IdBlock(cs)[j] == IdBlock(cs[1..])[j - cs[0].nmem]
  {
    var head := Repeat(cs[0].id, cs[0].nmem);
    var tail := IdBlock(cs[1..]);
    assert IdBlock(cs) == head + tail;
    ConstantThenRest(head, tail, cs[0].id);
  }

  /** A member past the first cluster's block takes its id from the tail's block. */
  lemma AlignTailEntry<R>(ms: seq<Member<R>>, cs: seq<Cluster>, j: nat, k: nat)
    requires |cs| > 0 && cs[0].nmem <= j < |ms| && k < |cs| && cs[k].index == ms[j].index
    requires |IdBlock(cs[1..])| == |ms[cs[0].nmem..]|
    requires forall j :: cs[0].nmem <= j < |ms| ==> ms[j].index > cs[0].index
    requires forall j, k :: 0 <= j < |ms[cs[0].nmem..]| && 0 <= k < |cs[1..]| && cs[1..][k].index == ms[cs[0].nmem..][j].index ==>
               IdBlock(cs[1..])[j] == cs[1..][k].id
    ensures IdBlock(cs[1..])[j - cs[0].nmem] == cs[k].id
  {
    var n0 := cs[0].nmem;
    assert ms[j] == ms[n0..][j - n0];
    assert k > 0;
    assert cs[1..][k - 1] == cs[k];
  }

  lemma MembersAtLeastFirst<R>(ms: seq<Member<R>>, cs: seq<Cluster>)
    requires |cs| > 0 && SortedBy(cs, ClusterIndex())
    requires forall j :: 0 <= j < |ms| ==> ms[j].index in Indices(cs)
    ensures forall j :: 0 <= j < |ms| ==> ms[j].index >= cs[0].index
  {
    forall j | 0 <= j < |ms| ensures ms[j].index >= cs[0].index {
      var k :| 0 <= k < |cs| && Indices(cs)[k] == ms[j].index;
      assert k == 0 || ClusterIndex()(cs[0]) <= ClusterIndex()(cs[k]);
    }
  }

  /** With distinct indices, the later clusters have larger indices than the first. */
  lemma TailAbove(cs: seq<Cluster>)
    requires |cs| > 0 && SortedBy(cs, ClusterIndex())
    requires forall k :: |Filter(cs, ClusterIndexIs(k))| <= 1
    ensures forall k :: 1 <= k < |cs| ==> cs[k].index > cs[0].index
  {
    forall k | 1 <= k < |cs| ensures cs[k].index > cs[0].index {
      assert ClusterIndex()(cs[0]) <= ClusterIndex()(cs[k]);
      if cs[k].index == cs[0].index {
        FilterKeepsTwo(cs, ClusterIndexIs(cs[0].index), 0, k);
      }
    }
  }

  lemma RestListed<R>(ms: seq<Member<R>>, cs: seq<Cluster>, n0: nat)
    requires |cs| > 0 && n0 <= |ms|
    requires forall j :: 0 <= j < |ms| ==> ms[j].index in Indices(cs)
    requires forall j :: n0 <= j < |ms| ==> ms[j].index > cs[0].index
    ensures forall j :: 0 <= j < |ms[n0..]| ==> ms[n0..][j].index in Indices(cs[1..])
  {
    forall j | 0 <= j < |ms[n0..]| ensures ms[n0..][j].index in Indices(cs[1..]) {
      assert ms[n0..][j] == ms[n0 + j];
      var k :| 0 <= k < |cs| && Indices(cs)[k] == ms[n0 + j].index;
      assert Indices(cs[1..])[k - 1] == ms[n0 + j].index;
    }
  }

  lemma RestCounts<R>(ms: seq<Member<R>>, cs: seq<Cluster>, n0: nat)
    requires |cs| > 0 && n0 <= |ms|
    requires forall k :: 0 <= k < |cs| ==> cs[k].nmem == |Filter(ms, IndexIs(cs[k].index))|
    requires forall j :: 0 <= j < n0 ==> ms[j].index == cs[0].index
    requires forall k :: 1 <= k < |cs| ==> cs[k].index > cs[0].index
    ensures forall k :: 0 <= k < |cs[1..]| ==> cs[1..][k].nmem == |Filter(ms[n0..], IndexIs(cs[1..][k].index))|
  {
    forall k | 0 <= k < |cs[1..]| ensures cs[1..][k].nmem == |Filter(ms[n0..], IndexIs(cs[1..][k].index))| {
      var c := cs[1..][k];
      assert cs[k + 1] == c;
      assert ms == ms[..n0] + ms[n0..];
      FilterAppend(ms[..n0], ms[n0..], IndexIs(c.index));
      FilterKeepsNone(ms[..n0], IndexIs(c.index));
    }
  }

  lemma TailDistinct(cs: seq<Cluster>)
    requires |cs| > 0
    requires forall k :: |Filter(cs, ClusterIndexIs(k))| <= 1
    ensures forall k :: |Filter(cs[1..], ClusterIndexIs(k))| <= 1
  {
    forall k ensures |Filter(cs[1..], ClusterIndexIs(k))| <= 1 {
      assert cs == [cs[0]] + cs[1..];
      FilterAppend([cs[0]], cs[1..], ClusterIndexIs(k));
    }
  }

  /** In a sorted member list whose indices are all at least `c`, the members of
      cluster `c` come first and all others follow. */
  lemma {:induction false} SortedSplit<R>(ms: seq<Member<R>>, c: int)
    requires SortedBy(ms, MemberIndex())
    requires forall j :: 0 <= j < |ms| ==> ms[j].index >= c
    ensures var n := |Filter(ms, IndexIs(c))|;
      && (forall j :: 0 <= j < n ==> ms[j].index == c)
      && (forall j :: n <= j < |ms| ==> ms[j].index > c)
  {
    if |ms| > 0 {
      if ms[0].index == c {
        var tail := ms[1..];
        SortedSuffix(ms, 1, MemberIndex());
        SortedSplit(tail, c);
        assert Filter(ms, IndexIs(c)) == [ms[0]] + Filter(tail, IndexIs(c));
      } else {
        forall j | 0 <= j < |ms| ensures ms[j].index > c {
          assert j == 0 || MemberIndex()(ms[0]) <= MemberIndex()(ms[j]);
        }
        FilterKeepsNone(ms, IndexIs(c));
      }
    }
  }
}

=== FILE: mosaic.dfy ===
/** The survey mosaic: catalogues and footprint maps stored as one shard per
    coarse pixel, named after the pixel. Which shards a query reads, what it keeps
    of them, and how a footprint map is cut into shards (lib/utils.py). A
    directory is its listing, the pixel ids of its shard files, and a function
    from pixel id to that shard's rows. */
module Mosaic {

  import opened Seqs
  import opened PixelGrid
  import opened Outcomes
  import opened Footprint

  // ---------------------------------------------------------------------
  // Merging shards

  /** The rows of the shards `rel` that `keep` accepts, shard after shard in the
      order of `rel` (the `np.copy` / `np.append` loop). */
  function MergeShards<T(!new)>(rel: seq<Pixel>, shard: Pixel -> seq<T>, keep: T -> bool): seq<T> {
    if |rel| == 0 then [] else Filter(shard(rel[0]), keep) + MergeShards(rel[1..], shard, keep)
  }

  lemma {:induction false} MergeShardsMembers<T(!new)>(rel: seq<Pixel>, shard: Pixel -> seq<T>, keep: T -> bool)
    ensures forall x :: x in MergeShards(rel, shard, keep) <==>
                        keep(x) && exists p :: p in rel && x in shard(p)
  {
    if |rel| > 0 {
      MergeShardsMembers(rel[1..], shard, keep);
      FilterMembers(shard(rel[0]), keep);
      assert MergeShards(rel, shard, keep) == Filter(shard(rel[0]), keep) + MergeShards(rel[1..], shard, keep);
      FirstShardMembers(rel, shard, keep);
      LaterShardMembers(rel, shard, keep);
      forall x | keep(x) && (exists p :: p in rel && x in shard(p))
        ensures x in MergeShards(rel, shard, keep)
      {
        var p :| p in rel && x in shard(p);
        ShardMember(rel, shard, keep, p, x);
      }
    }
  }

  /** The rows of each shard of `rel`, one entry per shard in the order of `rel`. */
  function ShardRows<T>(rel: seq<Pixel>, shard: Pixel -> seq<T>): (r: seq<seq<T>>)
    ensures |r| == |rel|
    ensures forall i :: 0 <= i < |rel| ==> r[i] == shard(rel[i])
  {
    seq(|rel|, i requires 0 <= i < |rel| => shard(rel[i]))
  }

  /** Filtering shard by shard and appending gives the same rows, in the same order,
      as appending the shards and filtering the result. */
  lemma {:induction false} MergeShardsFlatten<T(!new)>(rel: seq<Pixel>, shard: Pixel -> seq<T>, keep: T -> bool)
    ensures MergeShards(rel, shard, keep) == Filter(Flatten(ShardRows(rel, shard)), keep)
  {
    if |rel| > 0 {
      MergeShardsFlatten(rel[1..], shard, keep);
      var ss := ShardRows(rel, shard);
      assert ss[1..] == ShardRows(rel[1..], shard);
      FilterAppend(ss[0], Flatten(ss[1..]), keep);
    }
  }

  lemma FirstShardMembers<T(!new)>(rel: seq<Pixel>, shard: Pixel -> seq<T>, keep: T -> bool)
    requires |rel| > 0
    ensures forall x :: x in Filter(shard(rel[0]), keep) ==> keep(x) && exists p :: p in rel && x in shard(p)
  {
    forall x | x in Filter(shard(rel[0]), keep) ensures keep(x) && exists p :: p in rel && x in shard(p) {
      FilterMember(shard(rel[0]), keep, x);
      var p := rel[0];
      assert p in rel && x in shard(p);
    }
  }

  lemma LaterShardMembers<T(!new)>(rel: seq<Pixel>, shard: Pixel -> seq<T>, keep: T -> bool)
    requires |rel| > 0
    requires forall x :: x in MergeShards(rel[1..], shard, keep) <==>
                         keep(x) && exists p :: p in rel[1..] && x in shard(p)
    ensures forall x :: x in MergeShards(rel[1..], shard, keep) ==> keep(x) && exists p :: p in rel && x in shard(p)
  {
    forall x | x in MergeShards(rel[1..], shard, keep)
      ensures keep(x) && exists p :: p in rel && x in shard(p)
    {
      var p :| p in rel[1..] && x in shard(p);
      assert p in rel;
    }
  }

  /** An accepted row of one of the shards is in the merge. */
  lemma ShardMember<T(!new)>(rel: seq<Pixel>, shard: Pixel -> seq<T>, keep: T -> bool, p: Pixel, x: T)
    requires |rel| > 0 && p in rel && x in shard(p) && keep(x)
    requires forall x :: x in MergeShards(rel[1..], shard, keep) <==>
                         keep(x) && exists p :: p in rel[1..] && x in shard(p)
    ensures x in MergeShards(rel, shard, keep)
  {
    FilterMember(shard(rel[0]), keep, x);
    if p != rel[0] {
      assert p in rel[1..];
    }
  }

  /** Every row, a position test that accepts all of them. */
  function Everything<T(!new)>(): T -> bool {
    x => true
  }

  // ---------------------------------------------------------------------
  // read_mosaicFitsCat_in_disc, read_mosaicFootprint_in_disc

  /** The shards a disc query reads: the mosaic pixels overlapping the disc that
      have a shard in the listing, in the order the disc query lists them. */
  function ShardsInDisc(g: Geometry, mosaic: Scheme, c: Sky, radius: real, listing: seq<Pixel>): (r: seq<Pixel>)
    ensures forall p :: p in r <==> p in g.queryDisc(mosaic, c, radius, true) && p in listing
    ensures IsSubsequence(r, g.queryDisc(mosaic, c, radius, true))
    ensures Valid(g) ==> NoDup(r)
  {
    var disc := g.queryDisc(mosaic, c, radius, true);
    FilterMembers(disc, Inside(listing));
    FilterIsSubsequence(disc, Inside(listing));
    FilterNoDup(disc, Inside(listing));
    Filter(disc, Inside(listing))
  }

  /** The rows closer to `c` than `radius`, where `pos` gives a row's position. */
  function Within<T(!new)>(g: Geometry, pos: T -> Sky, c: Sky, radius: real): T -> bool {
    x => g.Dist(pos(x), c) < radius
  }

  /** A disc read of a sharded catalogue: the rows within `radius` of `c` from
      every listed shard whose pixel overlaps the disc. An empty directory fails
      on its first file name; no overlapping shard gives `None`. */
  function ReadMosaicInDisc<T(!new)>(g: Geometry, mosaic: Scheme, c: Sky, radius: real,
                               listing: seq<Pixel>, shard: Pixel -> seq<T>, pos: T -> Sky): (r: Result<Option<seq<T>>>)
    ensures r.Err? <==> |listing| == 0
    ensures r.Err? ==> r.failure == EmptyShardDirectory
    ensures r.Ok? ==> (r.value.None? <==> forall p :: p in g.queryDisc(mosaic, c, radius, true) ==> p !in listing)
    ensures r.Ok? && r.value.Some? ==>
      forall x :: x in r.value.value <==>
        g.Dist(pos(x), c) < radius &&
        exists p :: p in g.queryDisc(mosaic, c, radius, true) && p in listing && x in shard(p)
    ensures r.Ok? && r.value.Some? ==>
      r.value.value == Filter(Flatten(ShardRows(ShardsInDisc(g, mosaic, c, radius, listing), shard)),
                              Within(g, pos, c, radius))
  {
    if |listing| == 0 then Err(EmptyShardDirectory)
    else
      var rel := ShardsInDisc(g, mosaic, c, radius, listing);
      if |rel| == 0 then
        assert forall p :: p in g.queryDisc(mosaic, c, radius, true) ==> p !in listing;
        Ok(None)
      else
        assert rel[0] in rel;
        assert rel[0] in g.queryDisc(mosaic, c, radius, true) && rel[0] in listing;
        SomeShardListed(rel[0], g.queryDisc(mosaic, c, radius, true), listing);
        MergeShardsMembers(rel, shard, Within(g, pos, c, radius));
        MergeShardsFlatten(rel, shard, Within(g, pos, c, radius));
        Ok(Some(MergeShards(rel, shard, Within(g, pos, c, radius))))
  }

  lemma SomeShardListed(p: Pixel, disc: seq<Pixel>, listing: seq<Pixel>)
    requires p in disc && p in listing
    ensures !(forall q :: q in disc ==> q !in listing)
  {
  }

  /** The centre of a footprint row's pixel, at the footprint's own resolution. */
  function PixelCentre(g: Geometry, fpScheme: Scheme): FootRow -> Sky {
    (row: FootRow) => g.pix2ang(fpScheme, row.hpix)
  }

  /** The footprint variant: a footprint row is positioned by the centre of its pixel. */
  function ReadMosaicFootprintInDisc(g: Geometry, mosaic: Scheme, fpScheme: Scheme, c: Sky, radius: real,
                                     listing: seq<Pixel>, shard: Pixel -> seq<FootRow>): (r: Result<Option<seq<FootRow>>>)
    ensures r.Err? <==> |listing| == 0
    ensures r.Err? ==> r.failure == EmptyShardDirectory
    ensures r.Ok? ==> (r.value.None? <==> forall p :: p in g.queryDisc(mosaic, c, radius, true) ==> p !in listing)
    ensures r.Ok? && r.value.Some? ==>
      r.value.value == Filter(Flatten(ShardRows(ShardsInDisc(g, mosaic, c, radius, listing), shard)),
                              Within(g, PixelCentre(g, fpScheme), c, radius))
    ensures r.Ok? && r.value.Some? ==>
      forall row :: row in r.value.value <==>
        g.Dist(g.pix2ang(fpScheme, row.hpix), c) < radius &&
        exists p :: p in g.queryDisc(mosaic, c, radius, true) && p in listing && row in shard(p)
  {
    ReadMosaicInDisc(g, mosaic, c, radius, listing, shard, PixelCentre(g, fpScheme))
  }

  /** Under a valid geometry no shard is read twice by a disc query. */
  lemma DiscReadsEachShardOnce(g: Geometry, mosaic: Scheme, c: Sky, radius: real, listing: seq<Pixel>, p: Pixel)
    requires Valid(g)
    requires p in ShardsInDisc(g, mosaic, c, radius, listing)
    ensures Count(ShardsInDisc(g, mosaic, c, radius, listing), p) == 1
  {
    CountOfDistinctMember(ShardsInDisc(g, mosaic, c, radius, listing), p);
  }

  // ---------------------------------------------------------------------
  // read_mosaicFitsCat_in_hpix, read_mosaicFootprint_in_hpix

  /** Whether the centre of mosaic pixel `p` falls in one of the tile pixels. */
  function CentreInTile(g: Geometry, mosaic: Scheme, tile: Scheme, hpixTile: seq<Pixel>): Pixel -> bool {
    p => g.Parent(mosaic, tile, p) in hpixTile
  }

  /** The shards a tile read loads: the distinct listed pixels whose centre falls in
      one of the tile pixels, in increasing order. */
  function ShardsInHpix(g: Geometry, mosaic: Scheme, tile: Scheme, hpixTile: seq<Pixel>, listing: seq<Pixel>): (r: seq<Pixel>)
    ensures StrictlyIncreasing(r)
    ensures forall p :: p in r <==> p in listing && g.Parent(mosaic, tile, p) in hpixTile
  {
    FilterMembers(listing, CentreInTile(g, mosaic, tile, hpixTile));
    Unique(Filter(listing, CentreInTile(g, mosaic, tile, hpixTile)))
  }

  /** A tile read of a sharded catalogue or footprint: every row of every listed
      shard whose centre falls in the tile pixels, each shard once. */
  function ReadMosaicInHpix<T(!new)>(g: Geometry, mosaic: Scheme, tile: Scheme, hpixTile: seq<Pixel>,
                               listing: seq<Pixel>, shard: Pixel -> seq<T>): (r: Result<Option<seq<T>>>)
    ensures r.Err? <==> |listing| == 0
    ensures r.Err? ==> r.failure == EmptyShardDirectory
    ensures r.Ok? ==> (r.value.None? <==> forall p :: p in listing ==> g.Parent(mosaic, tile, p) !in hpixTile)
    ensures r.Ok? && r.value.Some? ==>
      forall x :: x in r.value.value <==>
        exists p :: p in listing && g.Parent(mosaic, tile, p) in hpixTile && x in shard(p)
    ensures r.Ok? && r.value.Some? ==>
      r.value.value == Flatten(ShardRows(ShardsInHpix(g, mosaic, tile, hpixTile, listing), shard))
  {
    if |listing| == 0 then Err(EmptyShardDirectory)
    else
      var rel := ShardsInHpix(g, mosaic, tile, hpixTile, listing);
      if |rel| == 0 then
        assert forall p :: p in listing ==> g.Parent(mosaic, tile, p) !in hpixTile;
        Ok(None)
      else
        MergeShardsMembers(rel, shard, Everything());
        MergeShardsFlatten(rel, shard, Everything());
        FilterAll(Flatten(ShardRows(rel, shard)), Everything());
        Ok(Some(MergeShards(rel, shard, Everything())))
  }

  // ---------------------------------------------------------------------
  // create_mosaic_footprint

  /** One shard of a footprint mosaic: the coarse pixel and its footprint rows. */
  datatype MosaicShard = MosaicShard(hpix: Pixel, rows: seq<FootRow>)

  /** The mosaic pixel of each footprint row. */
  function MosaicKeys(g: Geometry, fpScheme: Scheme, mosaic: Scheme, fp: seq<FootRow>): (r: seq<Pixel>)
    ensures |r| == |fp|
    ensures forall j :: 0 <= j < |fp| ==> r[j] == g.Parent(fpScheme, mosaic, fp[j].hpix)
  {
    g.Parents(fpScheme, mosaic, PixelColumn(fp))
  }

  /** The footprint map cut into one shard per mosaic pixel that it touches, in
      increasing pixel order; a shard holds the rows whose pixel centre falls in
      its mosaic pixel, in map order (a subsequence of the map). */
  function MosaicFootprint(g: Geometry, fpScheme: Scheme, mosaic: Scheme, fp: seq<FootRow>): (r: seq<MosaicShard>)
    ensures var keys := MosaicKeys(g, fpScheme, mosaic, fp);
      && |r| == |Unique(keys)|
      && (forall i, j :: 0 <= i < j < |r| ==> r[i].hpix < r[j].hpix)
      && (forall p :: (exists i :: 0 <= i < |r| && r[i].hpix == p) <==> p in keys)
      && (forall i :: 0 <= i < |r| ==> |r[i].rows| == Count(keys, r[i].hpix) > 0)
      && (forall i :: 0 <= i < |r| ==> IsSubsequence(r[i].rows, fp))
  {
    var keys := MosaicKeys(g, fpScheme, mosaic, fp);
    var u := Unique(keys);
    var r := seq(|u|, i requires 0 <= i < |u| => MosaicShard(u[i], Pick(fp, keys, u[i])));
    forall i | 0 <= i < |u| ensures Count(keys, u[i]) > 0 && IsSubsequence(r[i].rows, fp) {
      CountPositive(keys, u[i]);
      PickIsSubsequence(fp, keys, u[i]);
    }
    forall p | p in u ensures exists i :: 0 <= i < |r| && r[i].hpix == p {
      var i :| 0 <= i < |u| && u[i] == p;
      assert r[i].hpix == p;
    }
    r
  }

  /** A row of a mosaic shard is a footprint row whose pixel centre lies in the
      shard's mosaic pixel. */
  lemma MosaicShardSound(g: Geometry, fpScheme: Scheme, mosaic: Scheme, fp: seq<FootRow>, i: nat, row: FootRow)
    requires i < |MosaicFootprint(g, fpScheme, mosaic, fp)|
    requires row in MosaicFootprint(g, fpScheme, mosaic, fp)[i].rows
    ensures row in fp
    ensures g.Parent(fpScheme, mosaic, row.hpix) == MosaicFootprint(g, fpScheme, mosaic, fp)[i].hpix
  {
    var keys := MosaicKeys(g, fpScheme, mosaic, fp);
    var j := PickSound(fp, keys, Unique(keys)[i], row);
  }

  /** Every footprint row is in the shard of the mosaic pixel its centre falls in. */
  lemma MosaicShardComplete(g: Geometry, fpScheme: Scheme, mosaic: Scheme, fp: seq<FootRow>, j: nat)
    requires j < |fp|
    ensures var r := MosaicFootprint(g, fpScheme, mosaic, fp);
      exists i :: 0 <= i < |r| && r[i].hpix == g.Parent(fpScheme, mosaic, fp[j].hpix) && fp[j] in r[i].rows
  {
    var keys := MosaicKeys(g, fpScheme, mosaic, fp);
    var u := Unique(keys);
    assert keys[j] in keys;
    var i :| 0 <= i < |u| && u[i] == keys[j];
    PickComplete(fp, keys, u[i]);
    var r := MosaicFootprint(g, fpScheme, mosaic, fp);
    assert r[i].hpix == u[i] && fp[j] in r[i].rows;
  }

  /** The shards hold the footprint map's rows exactly once in total. */
  lemma MosaicFootprintPartition(g: Geometry, fpScheme: Scheme, mosaic: Scheme, fp: seq<FootRow>)
    ensures var r := MosaicFootprint(g, fpScheme, mosaic, fp);
      TotalLength(seq(|r|, i requires 0 <= i < |r| => r[i].rows)) == |fp|
  {
    var keys := MosaicKeys(g, fpScheme, mosaic, fp);
    var r := MosaicFootprint(g, fpScheme, mosaic, fp);
    GroupsPartition(fp, keys);
    assert seq(|r|, i requires 0 <= i < |r| => r[i].rows) == Groups(fp, keys, Unique(keys));
  }
}

=== FILE: outcomes.dfy ===
/** Optional values and the failures the modelled code raises. */
module Outcomes {

  /** numpy-era `None` returns: a merge that found no shard yields `None`. */
  datatype Option<+T> = None | Some(value: T)

  /** One constructor per way the modelled Python code stops with an exception. */
  datatype Failure =
    | EmptyShardDirectory   // `raw_list[0]` on an empty directory listing
    | ZeroDivision          // a float division by a zero count
    | UnboundVariable       // a local read before any assignment
    | IndexOutOfRange       // `label[i]` past the end of the label list
    | ColumnLengthMismatch  // a table column assigned with a length other than the table's

  datatype Result<+T> = Ok(value: T) | Err(failure: Failure)
}

=== FILE: pixel_grid.dfy ===
/** The equal-area hierarchical sky pixelisation (HEALPix, through `healpy`) as the
    rest of the model sees it: a record of uninterpreted functions, plus the few
    facts about them that the code relies on. Nothing here computes pixel geometry. */
module PixelGrid {

  import opened Seqs

  type Pixel = int

  /** The resolution parameter `Nside`: a positive integer. */
  type Nside = n: int | n >= 1 witness 1

  /** A pixelisation: resolution and ordering (`nest` true for NESTED, false for RING). */
  datatype Scheme = Scheme(nside: Nside, nest: bool)

  /** A sky position, right ascension and declination in degrees. */
  datatype Sky = Sky(ra: real, dec: real)

  /** The foreign primitives. Radii and distances are in degrees; `queryDisc`
      stands for `hp.query_disc` after the degree-to-radian conversion and
      `pixArea` for `hp.nside2pixarea(nside, degrees=True)`. `cosSep` is the
      spherical-cosine expression of `dist_ang` and `arccosDeg` is
      `np.degrees(np.arccos(.))`. */
  datatype Geometry = Geometry(
    ang2pix: (Scheme, Sky) -> Pixel,
    pix2ang: (Scheme, Pixel) -> Sky,
    queryDisc: (Scheme, Sky, real, bool) -> seq<Pixel>,
    pixArea: Nside -> real,
    cosSep: (Sky, Sky) -> real,
    arccosDeg: real -> real)
  {
    /** Angular distance in degrees (`np.degrees(dist_ang(..))`): the inverse cosine
        is only ever applied to a clamped argument. */
    function Dist(p: Sky, q: Sky): real {
      arccosDeg(Clamp(cosSep(p, q)))
    }

    /** The pixel at resolution `to` that contains the centre of pixel `p` of
        resolution `from` (`ang2pix(to, *pix2ang(from, p))`). */
    function Parent(from: Scheme, to: Scheme, p: Pixel): Pixel {
      ang2pix(to, pix2ang(from, p))
    }

    /** `Parent` applied to a whole pixel column. */
    function Parents(from: Scheme, to: Scheme, pix: seq<Pixel>): (r: seq<Pixel>)
      ensures |r| == |pix|
      ensures forall i :: 0 <= i < |pix| ==> r[i] == Parent(from, to, pix[i])
    {
      seq(|pix|, i requires 0 <= i < |pix| => Parent(from, to, pix[i]))
    }
  }

  /** The properties of `healpy` that the modelled code depends on:
      a disc query lists each pixel once, pixels have positive area, and a
      non-inclusive disc (pixel centres inside) lies within an inclusive disc
      (pixels overlapping) of the same centre and no smaller radius. */
  ghost predicate Valid(g: Geometry) {
    && (forall s, c, r, inclusive :: NoDup(g.queryDisc(s, c, r, inclusive)))
    && (forall n :: g.pixArea(n) > 0.0)
    && (forall s, c, r1, r2, p ::
          0.0 <= r1 <= r2 && p in g.queryDisc(s, c, r1, false) ==> p in g.queryDisc(s, c, r2, true))
  }

  /** A pixel whose centre is in the disc of radius `r1` overlaps every disc of the
      same centre and a radius `r2 >= r1`. */
  lemma DiscsNest(g: Geometry, s: Scheme, c: Sky, r1: real, r2: real, p: Pixel)
    requires Valid(g) && 0.0 <= r1 <= r2
    requires p in g.queryDisc(s, c, r1, false)
    ensures p in g.queryDisc(s, c, r2, true)
  {
  }

  /** The cosine clamp of `dist_ang`: round-off outside [-1, 1] is pulled back onto
      the interval; values inside are untouched. */
  function Clamp(c: real): (r: real)
    ensures -1.0 <= r <= 1.0
    ensures -1.0 <= c <= 1.0 ==> r == c
    ensures r == c || r == 1.0 || r == -1.0
  {
    if c > 1.0 then 1.0 else if c < -1.0 then -1.0 else c
  }

  /** Clamping preserves the order of cosines, so it never reorders distances. */
  lemma ClampMonotone(a: real, b: real)
    requires a <= b
    ensures Clamp(a) <= Clamp(b)
  {
  }

  /** The branch test `sqrt(pixArea) > 0.1 * rad` of `cond_in_disc`, decided without a
      square root. */
  predicate PixelLargerThanTenthOf(area: real, rad: real)
    requires area >= 0.0
  {
    rad < 0.0 || 100.0 * area > rad * rad
  }

  /** `PixelLargerThanTenthOf` agrees with the square-root comparison for the side
      `side = sqrt(area)`. */
  lemma PixelSizeTest(side: real, rad: real)
    requires side >= 0.0
    ensures PixelLargerThanTenthOf(side * side, rad) <==> side > 0.1 * rad
  {
    if rad >= 0.0 {
      var t := 0.1 * rad;
      assert 100.0 * (side * side) > rad * rad <==> side * side > t * t;
      SquaresOrdered(side, t);
    }
  }

  lemma SquaresOrdered(a: real, b: real)
    requires a >= 0.0 && b >= 0.0
    ensures a * a > b * b <==> a > b
  {
    if a > b {
      ProductPositive(a, a - b);
      ProductNonNegative(b, a - b);
      assert a * a - b * b == a * (a - b) + b * (a - b);
    } else {
      ProductNonNegative(a, b - a);
      ProductNonNegative(b, b - a);
      assert b * b - a * a == a * (b - a) + b * (b - a);
    }
  }

  lemma ProductNonNegative(a: real, b: real)
    requires a >= 0.0 && b >= 0.0
    ensures a * b >= 0.0
  {
  }

  lemma ProductPositive(a: real, b: real)
    requires a > 0.0 && b > 0.0
    ensures a * b > 0.0
  {
  }
}

=== FILE: region_query.dfy ===
/** Which objects of a catalogue lie in a disc or in a tile pixel: the per-object
    masks of `cond_in_disc`, `cond_in_hpx_disc` and `filter_hpx_tile` (lib/utils.py). */
module RegionQuery {

  import opened Seqs
  import opened PixelGrid
  import opened Footprint

  /** A catalogue object as the masks see it: its position and the pixel it falls in
      at the resolution of the query. */
  datatype Galaxy = Galaxy(pos: Sky, hpix: Pixel)

  // ---------------------------------------------------------------------
  // cond_in_disc

  /** The branch test `sqrt(pixarea) > 0.1 * rad`. The square root of a negative area
      would be NaN, and every comparison with NaN is false. */
  predicate PixelPrefilter(area: real, rad: real) {
    area >= 0.0 && PixelLargerThanTenthOf(area, rad)
  }

  /** The value `dist2cl` holds for one object when `cond_in_disc` returns. It starts
      at `2 rad`. On the coarse-pixel branch the objects in the inclusive disc get
      their distance. On the fine-pixel branch the objects in the strict disc of
      radius `0.8 rad` get 0, and those in the remaining edge pixels of the inclusive
      disc get their distance; the edge assignment comes second. */
  function Dist2Cl(g: Geometry, s: Scheme, c: Sky, rad: real, x: Galaxy): real {
    var disc := g.queryDisc(s, c, rad, true);
    if PixelPrefilter(g.pixArea(s.nside), rad) then
      if x.hpix in disc then g.Dist(x.pos, c) else 2.0 * rad
    else
      var strict := g.queryDisc(s, c, 0.8 * rad, false);
      var edge := Filter(disc, Outside(strict));
      if x.hpix in edge then g.Dist(x.pos, c)
      else if x.hpix in strict then 0.0
      else 2.0 * rad
  }

  /** `cond_in_disc`: one flag per object, set when its `dist2cl` is below the radius. */
  function CondInDisc(g: Geometry, s: Scheme, c: Sky, rad: real, objs: seq<Galaxy>): (r: seq<bool>)
    ensures |r| == |objs|
    ensures var disc := g.queryDisc(s, c, rad, true);
      PixelPrefilter(g.pixArea(s.nside), rad) && rad >= 0.0 ==>
        forall i :: 0 <= i < |objs| ==>
          (r[i] <==> objs[i].hpix in disc && g.Dist(objs[i].pos, c) < rad)
    ensures var disc := g.queryDisc(s, c, rad, true);
      PixelPrefilter(g.pixArea(s.nside), rad) && rad < 0.0 ==>
        forall i :: 0 <= i < |objs| ==>
          (r[i] <==> objs[i].hpix !in disc || g.Dist(objs[i].pos, c) < rad)
    ensures var disc := g.queryDisc(s, c, rad, true);
      var strict := g.queryDisc(s, c, 0.8 * rad, false);
      !PixelPrefilter(g.pixArea(s.nside), rad) ==>
        forall i :: 0 <= i < |objs| ==>
          && (objs[i].hpix in strict ==> (r[i] <==> rad > 0.0))
          && (objs[i].hpix in disc && objs[i].hpix !in strict ==> (r[i] <==> g.Dist(objs[i].pos, c) < rad))
          && (objs[i].hpix !in disc && objs[i].hpix !in strict ==> (r[i] <==> rad < 0.0))
  {
    var disc := g.queryDisc(s, c, rad, true);
    var strict := g.queryDisc(s, c, 0.8 * rad, false);
    FilterMembers(disc, Outside(strict));
    seq(|objs|, i requires 0 <= i < |objs| => Dist2Cl(g, s, c, rad, objs[i]) < rad)
  }

  /** For a valid geometry and a radius of zero or more, `cond_in_disc` never accepts
      an object whose pixel is outside the inclusive disc: the strict disc, of the
      smaller radius `0.8 rad`, lies inside it. */
  lemma CondInDiscWithinDisc(g: Geometry, s: Scheme, c: Sky, rad: real, objs: seq<Galaxy>, i: nat)
    requires Valid(g) && rad >= 0.0
    requires i < |objs| && CondInDisc(g, s, c, rad, objs)[i]
    ensures objs[i].hpix in g.queryDisc(s, c, rad, true)
  {
    var strict := g.queryDisc(s, c, 0.8 * rad, false);
    if objs[i].hpix in strict {
      DiscsNest(g, s, c, 0.8 * rad, rad, objs[i].hpix);
    }
  }

  /** On the fine-pixel branch, for a valid geometry, every object whose pixel is in
      the strict disc is accepted: positive pixel area forces a positive radius there. */
  lemma CondInDiscAcceptsStrict(g: Geometry, s: Scheme, c: Sky, rad: real, objs: seq<Galaxy>, i: nat)
    requires Valid(g)
    requires !PixelPrefilter(g.pixArea(s.nside), rad)
    requires i < |objs| && objs[i].hpix in g.queryDisc(s, c, 0.8 * rad, false)
    ensures CondInDisc(g, s, c, rad, objs)[i]
  {
    FineBranchRadius(g.pixArea(s.nside), rad);
  }

  /** Positive pixel area that fails the branch test comes with a positive radius. */
  lemma FineBranchRadius(area: real, rad: real)
    requires area > 0.0 && !PixelPrefilter(area, rad)
    ensures rad > 0.0
  {
  }

  // ---------------------------------------------------------------------
  // cond_in_hpx_disc

  /** `cond_in_hpx_disc`: the objects whose pixel has its centre inside the disc. */
  function CondInHpxDisc(g: Geometry, s: Scheme, c: Sky, rad: real, hpx: seq<Pixel>): (r: seq<bool>)
    ensures |r| == |hpx|
    ensures forall i :: 0 <= i < |hpx| ==> (r[i] <==> hpx[i] in g.queryDisc(s, c, rad, false))
  {
    seq(|hpx|, i requires 0 <= i < |hpx| => hpx[i] in g.queryDisc(s, c, rad, false))
  }

  /** For a valid geometry, an object accepted by the pixel-centre test at radius
      `rad` has its pixel in the inclusive disc of any radius `rad2 >= rad`. */
  lemma HpxDiscWithinInclusive(g: Geometry, s: Scheme, c: Sky, rad: real, rad2: real, hpx: seq<Pixel>, i: nat)
    requires Valid(g) && 0.0 <= rad <= rad2
    requires i < |hpx| && CondInHpxDisc(g, s, c, rad, hpx)[i]
    ensures hpx[i] in g.queryDisc(s, c, rad2, true)
  {
    DiscsNest(g, s, c, rad, rad2, hpx[i]);
  }

  /** The pixel column of a catalogue, the `hpxg` both masks are given. */
  function GalaxyPixels(objs: seq<Galaxy>): (r: seq<Pixel>)
    ensures |r| == |objs|
    ensures forall i :: 0 <= i < |objs| ==> r[i] == objs[i].hpix
  {
    seq(|objs|, i requires 0 <= i < |objs| => objs[i].hpix)
  }

  /** The pixel-centre test at `0.8 rad` is the strict tier of `cond_in_disc`: on the
      fine-pixel branch, for a valid geometry, every object it flags is accepted by
      `cond_in_disc` at `rad`, whatever its distance. */
  lemma StrictTierAccepted(g: Geometry, s: Scheme, c: Sky, rad: real, objs: seq<Galaxy>, i: nat)
    requires Valid(g)
    requires !PixelPrefilter(g.pixArea(s.nside), rad)
    requires i < |objs| && CondInHpxDisc(g, s, c, 0.8 * rad, GalaxyPixels(objs))[i]
    ensures CondInDisc(g, s, c, rad, objs)[i]
  {
    CondInDiscAcceptsStrict(g, s, c, rad, objs, i);
  }

  // ---------------------------------------------------------------------
  // filter_hpx_tile

  /** The tile pixel of every row: `ang2pix` of its position at the tile resolution. */
  function TileKeys<T>(g: Geometry, tile: Scheme, rows: seq<T>, pos: T -> Sky): (r: seq<Pixel>)
    ensures |r| == |rows|
    ensures forall j :: 0 <= j < |rows| ==> r[j] == g.ang2pix(tile, pos(rows[j]))
  {
    seq(|rows|, j requires 0 <= j < |rows| => g.ang2pix(tile, pos(rows[j])))
  }

  /** `filter_hpx_tile`: the rows that fall in the tile pixel `hpix`, in catalogue order. */
  function FilterHpxTile<T>(g: Geometry, tile: Scheme, hpix: Pixel, rows: seq<T>, pos: T -> Sky): (r: seq<T>)
    ensures |r| == Count(TileKeys(g, tile, rows, pos), hpix)
    ensures IsSubsequence(r, rows)
    ensures forall i :: 0 <= i < |r| ==> g.ang2pix(tile, pos(r[i])) == hpix
  {
    var keys := TileKeys(g, tile, rows, pos);
    PickIsSubsequence(rows, keys, hpix);
    var picked := Pick(rows, keys, hpix);
    assert forall i :: 0 <= i < |picked| ==> g.ang2pix(tile, pos(picked[i])) == hpix by {
      forall i | 0 <= i < |picked| ensures g.ang2pix(tile, pos(picked[i])) == hpix {
        var j := PickSound(rows, keys, hpix, picked[i]);
      }
    }
    picked
  }

  /** A row is kept exactly when some position holding it falls in the tile pixel. */
  lemma FilterHpxTileMembers<T>(g: Geometry, tile: Scheme, hpix: Pixel, rows: seq<T>, pos: T -> Sky, x: T)
    ensures x in FilterHpxTile(g, tile, hpix, rows, pos) <==>
            exists j :: 0 <= j < |rows| && rows[j] == x && g.ang2pix(tile, pos(rows[j])) == hpix
  {
    var keys := TileKeys(g, tile, rows, pos);
    PickComplete(rows, keys, hpix);
    if x in FilterHpxTile(g, tile, hpix, rows, pos) {
      var j := PickSound(rows, keys, hpix, x);
    }
  }

  /** The tiles that the rows fall in split the catalogue: filtering it once per
      distinct tile pixel returns every row exactly once in total. */
  lemma TilesPartitionRows<T>(g: Geometry, tile: Scheme, rows: seq<T>, pos: T -> Sky)
    ensures var u := Unique(TileKeys(g, tile, rows, pos));
      var parts := Groups(rows, TileKeys(g, tile, rows, pos), u);
      && (forall i :: 0 <= i < |u| ==> parts[i] == FilterHpxTile(g, tile, u[i], rows, pos))
      && TotalLength(parts) == |rows|
  {
    GroupsPartition(rows, TileKeys(g, tile, rows, pos));
  }
}

=== FILE: seqs.dfy ===
/** Sequence vocabulary shared by the model: mask selection, sub-sequences,
    `np.unique`, occurrence counts, sums, concatenation and sorting. */
module Seqs {

  // ---------------------------------------------------------------------
  // Selection

  /** The elements of `s` that `keep` accepts, in their original order:
      numpy's boolean-mask selection `s[mask]`. */
  function Filter<T>(s: seq<T>, keep: T -> bool): (r: seq<T>)
    ensures |r| <= |s|
    ensures forall i :: 0 <= i < |r| ==> keep(r[i])
  {
    if |s| == 0 then []
    else if keep(s[0]) then [s[0]] + Filter(s[1..], keep)
    else Filter(s[1..], keep)
  }

  lemma {:induction false} FilterMembers<T>(s: seq<T>, keep: T -> bool)
    ensures forall x :: x in Filter(s, keep) <==> x in s && keep(x)
  {
    if |s| > 0 {
      FilterMembers(s[1..], keep);
      assert s == [s[0]] + s[1..];
    }
  }

  /** `FilterMembers` for one element. */
  lemma FilterMember<T>(s: seq<T>, keep: T -> bool, x: T)
    ensures x in Filter(s, keep) <==> x in s && keep(x)
  {
    FilterMembers(s, keep);
  }

  /** `Filter` keeps every copy of a kept element and no copy of a dropped one. */
  lemma {:induction false} FilterMultiplicity<T>(s: seq<T>, keep: T -> bool, x: T)
    ensures multiset(Filter(s, keep))[x] == if keep(x) then multiset(s)[x] else 0
  {
    if |s| > 0 {
      FilterMultiplicity(s[1..], keep, x);
      assert s == [s[0]] + s[1..];
      assert multiset(s) == multiset([s[0]]) + multiset(s[1..]);
      if keep(s[0]) {
        assert multiset(Filter(s, keep)) == multiset([s[0]]) + multiset(Filter(s[1..], keep));
      }
    }
  }

  lemma {:induction false} FilterAppend<T>(a: seq<T>, b: seq<T>, keep: T -> bool)
    ensures Filter(a + b, keep) == Filter(a, keep) + Filter(b, keep)
  {
    if |a| > 0 {
      FilterAppend(a[1..], b, keep);
      assert (a + b)[1..] == a[1..] + b;
    } else {
      assert a + b == b;
    }
  }

  /** Two accepted positions make at least two selected elements. */
  lemma FilterKeepsTwo<T>(s: seq<T>, keep: T -> bool, i: nat, j: nat)
    requires i < j < |s| && keep(s[i]) && keep(s[j])
    ensures |Filter(s, keep)| >= 2
  {
    assert s == s[..j] + s[j..];
    FilterAppend(s[..j], s[j..], keep);
    assert s[..j][i] == s[i] && s[j..][0] == s[j];
    FilterMember(s[..j], keep, s[i]);
    FilterMember(s[j..], keep, s[j]);
  }

  /** Selecting with `keep` and then with a stricter `test` selects with `test` alone. */
  lemma {:induction false} FilterOfFilter<T>(s: seq<T>, keep: T -> bool, test: T -> bool)
    requires forall x :: x in s && test(x) ==> keep(x)
    ensures Filter(Filter(s, keep), test) == Filter(s, test)
  {
    if |s| > 0 {
      assert forall x :: x in s[1..] ==> x in s;
      FilterOfFilter(s[1..], keep, test);
    }
  }

  /** Rearranging a sequence does not change how many of its elements a mask keeps. */
  lemma {:induction false} FilterCountPermutation<T>(a: seq<T>, b: seq<T>, keep: T -> bool)
    requires multiset(a) == multiset(b)
    ensures |Filter(a, keep)| == |Filter(b, keep)|
    decreases |a|
  {
    if |a| > 0 {
      assert a[0] in multiset(b);
      var i :| 0 <= i < |b| && b[i] == a[0];
      MultisetRemove(a, b, i);
      FilterCountPermutation(a[1..], b[..i] + b[i + 1..], keep);
      FilterCountRemove(b, i, keep);
    } else {
      assert |b| == |multiset(b)| == 0;
    }
  }

  lemma MultisetRemove<T>(a: seq<T>, b: seq<T>, i: nat)
    requires multiset(a) == multiset(b) && |a| > 0 && i < |b| && b[i] == a[0]
    ensures multiset(a[1..]) == multiset(b[..i] + b[i + 1..])
  {
    assert b == b[..i] + [b[i]] + b[i + 1..];
    assert a == [a[0]] + a[1..];
    calc {
      multiset(a[1..]);
      multiset(a) - multiset{a[0]};
      multiset(b) - multiset{a[0]};
      multiset(b[..i] + b[i + 1..]);
    }
  }

  lemma FilterCountRemove<T>(b: seq<T>, i: nat, keep: T -> bool)
    requires i < |b|
    ensures |Filter(b, keep)| == |Filter(b[..i] + b[i + 1..], keep)| + (if keep(b[i]) then 1 else 0)
  {
    assert b == b[..i] + ([b[i]] + b[i + 1..]);
    FilterAppend(b[..i], [b[i]] + b[i + 1..], keep);
    FilterAppend([b[i]], b[i + 1..], keep);
    FilterAppend(b[..i], b[i + 1..], keep);
  }

  /** `a` is `b` with some elements removed, the rest kept in order. */
  ghost predicate IsSubsequence<T>(a: seq<T>, b: seq<T>)
    decreases |b|
  {
    if |b| == 0 then |a| == 0
    else (|a| > 0 && a[0] == b[0] && IsSubsequence(a[1..], b[1..])) || IsSubsequence(a, b[1..])
  }

  lemma {:induction false} SubsequenceOfItself<T>(s: seq<T>)
    ensures IsSubsequence(s, s)
  {
    if |s| > 0 {
      SubsequenceOfItself(s[1..]);
    }
  }

  lemma {:induction false} EmptySubsequence<T>(s: seq<T>)
    ensures IsSubsequence([], s)
  {
    if |s| > 0 {
      EmptySubsequence(s[1..]);
    }
  }

  lemma {:induction false} FilterIsSubsequence<T>(s: seq<T>, keep: T -> bool)
    ensures IsSubsequence(Filter(s, keep), s)
  {
    if |s| > 0 {
      FilterIsSubsequence(s[1..], keep);
    }
  }

  /** Selection by a mask that is a separate key column: the rows whose key is `k`
      (`rows[keys == k]`). */
  function Pick<T>(rows: seq<T>, keys: seq<int>, k: int): (r: seq<T>)
    requires |rows| == |keys|
    ensures |r| == Count(keys, k)
  {
    if |rows| == 0 then []
    else if keys[0] == k then [rows[0]] + Pick(rows[1..], keys[1..], k)
    else Pick(rows[1..], keys[1..], k)
  }

  /** Every row that `Pick` returns sits at a position whose key is `k`. */
  lemma {:induction false} PickSound<T>(rows: seq<T>, keys: seq<int>, k: int, x: T) returns (j: nat)
    requires |rows| == |keys|
    requires x in Pick(rows, keys, k)
    ensures j < |rows| && keys[j] == k && rows[j] == x
  {
    if keys[0] == k && x == rows[0] {
      j := 0;
    } else {
      var j' := PickSound(rows[1..], keys[1..], k, x);
      j := j' + 1;
    }
  }

  /** Every row whose key is `k` is returned by `Pick`. */
  lemma {:induction false} PickComplete<T>(rows: seq<T>, keys: seq<int>, k: int)
    requires |rows| == |keys|
    ensures forall j :: 0 <= j < |rows| && keys[j] == k ==> rows[j] in Pick(rows, keys, k)
  {
    if |rows| > 0 {
      PickComplete(rows[1..], keys[1..], k);
      forall j | 0 <= j < |rows| && keys[j] == k
        ensures rows[j] in Pick(rows, keys, k)
      {
        if j > 0 {
          assert rows[1..][j - 1] == rows[j] && keys[1..][j - 1] == k;
        }
      }
    }
  }

  lemma {:induction false} PickIsSubsequence<T>(rows: seq<T>, keys: seq<int>, k: int)
    requires |rows| == |keys|
    ensures IsSubsequence(Pick(rows, keys, k), rows)
  {
    if |rows| > 0 {
      PickIsSubsequence(rows[1..], keys[1..], k);
    }
  }

  /** `Pick` for each of the keys `u`, in the order of `u`: the rows grouped by key. */
  function Groups<T>(rows: seq<T>, keys: seq<int>, u: seq<int>): (r: seq<seq<T>>)
    requires |rows| == |keys|
    ensures |r| == |u|
    ensures forall i :: 0 <= i < |u| ==> r[i] == Pick(rows, keys, u[i])
  {
    if |u| == 0 then [] else [Pick(rows, keys, u[0])] + Groups(rows, keys, u[1..])
  }

  lemma {:induction false} GroupsTotal<T>(rows: seq<T>, keys: seq<int>, u: seq<int>)
    requires |rows| == |keys|
    ensures TotalLength(Groups(rows, keys, u)) == SumCounts(keys, u)
  {
    if |u| > 0 {
      GroupsTotal(rows, keys, u[1..]);
      assert Groups(rows, keys, u)[1..] == Groups(rows, keys, u[1..]);
    }
  }

  /** Grouping rows by the distinct values of their key column places every row in
      exactly one group: the group sizes add up to the number of rows. */
  lemma GroupsPartition<T>(rows: seq<T>, keys: seq<int>)
    requires |rows| == |keys|
    ensures TotalLength(Groups(rows, keys, Unique(keys))) == |rows|
  {
    var u := Unique(keys);
    IncreasingHasNoDup(u);
    forall j | 0 <= j < |keys| ensures keys[j] in u {
      assert keys[j] in keys;
    }
    CountsCover(keys, u);
    GroupsTotal(rows, keys, u);
  }

  // ---------------------------------------------------------------------
  // Distinctness and order

  ghost predicate NoDup<T>(s: seq<T>) {
    forall i, j :: 0 <= i < j < |s| ==> s[i] != s[j]
  }

  lemma {:induction false} FilterNoDup<T>(s: seq<T>, keep: T -> bool)
    ensures NoDup(s) ==> NoDup(Filter(s, keep))
  {
    if |s| > 0 && NoDup(s) {
      FilterNoDup(s[1..], keep);
      FilterMembers(s[1..], keep);
      assert s[0] !in s[1..] by {
        forall j | 0 <= j < |s| - 1 ensures s[1..][j] != s[0] {
          assert s[1..][j] == s[j + 1];
        }
      }
    }
  }

  /** A sequence without repeats has as many distinct elements as positions. */
  lemma {:induction false} DistinctCardinality<T>(s: seq<T>)
    requires NoDup(s)
    ensures |set x | x in s| == |s|
  {
    if |s| > 0 {
      var t := s[1..];
      assert NoDup(t) by {
        forall i, j | 0 <= i < j < |t| ensures t[i] != t[j] {
          assert t[i] == s[i + 1] && t[j] == s[j + 1];
        }
      }
      DistinctCardinality(t);
      assert s[0] !in t by {
        forall j | 0 <= j < |t| ensures t[j] != s[0] {
          assert t[j] == s[j + 1];
        }
      }
      assert s == [s[0]] + t;
      assert (set x | x in s) == {s[0]} + (set x | x in t);
    }
  }

  /** Nothing is dropped exactly when every element is kept. */
  lemma {:induction false} FilterKeepsAll<T>(s: seq<T>, keep: T -> bool)
    ensures |Filter(s, keep)| == |s| <==> forall i :: 0 <= i < |s| ==> keep(s[i])
  {
    if |s| > 0 {
      FilterKeepsAll(s[1..], keep);
      if !keep(s[0]) {
        assert |Filter(s, keep)| < |s|;
      }
      assert (forall i :: 0 <= i < |s| ==> keep(s[i])) <==>
             keep(s[0]) && forall i :: 0 <= i < |s| - 1 ==> keep(s[1..][i]);
    }
  }

  /** A test that accepts every element keeps the sequence as it is. */
  lemma {:induction false} FilterAll<T>(s: seq<T>, keep: T -> bool)
    requires forall x :: keep(x)
    ensures Filter(s, keep) == s
  {
    if |s| > 0 {
      FilterAll(s[1..], keep);
      assert s == [s[0]] + s[1..];
    }
  }

  /** Everything is dropped exactly when no element is kept. */
  lemma {:induction false} FilterKeepsNone<T>(s: seq<T>, keep: T -> bool)
    ensures |Filter(s, keep)| == 0 <==> forall i :: 0 <= i < |s| ==> !keep(s[i])
  {
    if |s| > 0 {
      FilterKeepsNone(s[1..], keep);
      assert (forall i :: 0 <= i < |s| ==> !keep(s[i])) <==>
             !keep(s[0]) && forall i :: 0 <= i < |s| - 1 ==> !keep(s[1..][i]);
    }
  }

  /** A duplicate-free sequence whose elements all occur in `b` is no longer than `b`. */
  lemma {:induction false} DistinctWithin(a: seq<int>, b: seq<int>)
    requires NoDup(a)
    requires forall x :: x in a ==> x in b
    ensures |a| <= |b|
  {
    if |a| > 0 {
      var other := x => x != a[0];
      var rest := Filter(b, other);
      FilterMembers(b, other);
      FilterKeepsAll(b, other);
      assert a[0] in a;
      assert a[0] in b;
      var k :| 0 <= k < |b| && b[k] == a[0];
      assert |rest| < |b|;
      forall x | x in a[1..] ensures x in rest {
        var j :| 0 <= j < |a[1..]| && a[1..][j] == x;
        assert a[j + 1] == x;
      }
      DistinctWithin(a[1..], rest);
    }
  }

  predicate StrictlyIncreasing(s: seq<int>) {
    forall i, j :: 0 <= i < j < |s| ==> s[i] < s[j]
  }

  lemma IncreasingHasNoDup(s: seq<int>)
    requires StrictlyIncreasing(s)
    ensures NoDup(s)
  {
  }

  /** `x` placed into the strictly increasing `s`, unless it is already there. */
  function InsertUnique(x: int, s: seq<int>): (r: seq<int>)
    requires StrictlyIncreasing(s)
    ensures StrictlyIncreasing(r)
    ensures forall y :: y in r <==> y == x || y in s
  {
    if |s| == 0 then [x]
    else if x < s[0] then [x] + s
    else if x == s[0] then s
    else
      var tail := InsertUnique(x, s[1..]);
      assert forall y :: y in tail ==> s[0] < y;
      ConsIncreasing(s[0], tail);
      assert s == [s[0]] + s[1..];
      [s[0]] + tail
  }

  lemma ConsIncreasing(a: int, s: seq<int>)
    requires StrictlyIncreasing(s)
    requires forall y :: y in s ==> a < y
    ensures StrictlyIncreasing([a] + s)
  {
    var r := [a] + s;
    forall i, j | 0 <= i < j < |r| ensures r[i] < r[j] {
      assert r[j] == s[j - 1];
      if i > 0 {
        assert r[i] == s[i - 1];
      } else {
        assert s[j - 1] in s;
      }
    }
  }

  /** numpy's `np.unique`: the distinct values of `s` in increasing order. */
  function Unique(s: seq<int>): (r: seq<int>)
    ensures StrictlyIncreasing(r)
    ensures forall y :: y in r <==> y in s
  {
    if |s| == 0 then [] else InsertUnique(s[0], Unique(s[1..]))
  }

  // ---------------------------------------------------------------------
  // Counting

  /** Number of occurrences of `x` in `s`. */
  function Count(s: seq<int>, x: int): nat {
    if |s| == 0 then 0 else (if s[0] == x then 1 else 0) + Count(s[1..], x)
  }

  lemma {:induction false} CountPositive(s: seq<int>, x: int)
    ensures Count(s, x) > 0 <==> x in s
  {
    if |s| > 0 {
      CountPositive(s[1..], x);
      assert s == [s[0]] + s[1..];
    }
  }

  lemma {:induction false} CountOfDistinctMember(s: seq<int>, x: int)
    requires NoDup(s)
    requires x in s
    ensures Count(s, x) == 1
  {
    if s[0] == x {
      CountPositive(s[1..], x);
      assert x !in s[1..] by {
        forall j | 0 <= j < |s| - 1 ensures s[1..][j] != x {
          assert s[1..][j] == s[j + 1];
        }
      }
    } else {
      CountOfDistinctMember(s[1..], x);
    }
  }

  /** `Count(keys, u[0]) + ... + Count(keys, u[|u|-1])`. */
  ghost function SumCounts(keys: seq<int>, u: seq<int>): nat {
    if |u| == 0 then 0 else Count(keys, u[0]) + SumCounts(keys, u[1..])
  }

  lemma {:induction false} SumCountsCons(k: int, keys: seq<int>, u: seq<int>)
    ensures SumCounts([k] + keys, u) == Count(u, k) + SumCounts(keys, u)
  {
    if |u| > 0 {
      SumCountsCons(k, keys, u[1..]);
      assert ([k] + keys)[1..] == keys;
    }
  }

  /** Grouping a key column by a duplicate-free list of values that includes every
      key accounts for each row exactly once. */
  lemma {:induction false} CountsCover(keys: seq<int>, u: seq<int>)
    requires NoDup(u)
    requires forall j :: 0 <= j < |keys| ==> keys[j] in u
    ensures SumCounts(keys, u) == |keys|
  {
    if |keys| == 0 {
      EmptyCounts(u);
    } else {
      assert keys == [keys[0]] + keys[1..];
      SumCountsCons(keys[0], keys[1..], u);
      CountOfDistinctMember(u, keys[0]);
      CountsCover(keys[1..], u);
    }
  }

  lemma {:induction false} EmptyCounts(u: seq<int>)
    ensures SumCounts([], u) == 0
  {
    if |u| > 0 {
      EmptyCounts(u[1..]);
    }
  }

  // ---------------------------------------------------------------------
  // Sums, repetition and concatenation

  function Sum(s: seq<real>): real {
    if |s| == 0 then 0.0 else s[0] + Sum(s[1..])
  }

  lemma {:induction false} SumBounds(s: seq<real>)
    requires forall i :: 0 <= i < |s| ==> 0.0 <= s[i] <= 1.0
    ensures 0.0 <= Sum(s) <= |s| as real
  {
    if |s| > 0 {
      SumBounds(s[1..]);
    }
  }

  /** `ys` is `xs` with every term multiplied by `n`. */
  ghost predicate ScaledBy(xs: seq<real>, ys: seq<real>, n: real) {
    |xs| == |ys| && forall i :: 0 <= i < |xs| ==> xs[i] * n == ys[i]
  }

  lemma ScaledByCons(x: real, xs: seq<real>, y: real, ys: seq<real>, n: real)
    requires x * n == y && ScaledBy(xs, ys, n)
    ensures ScaledBy([x] + xs, [y] + ys, n)
  {
  }

  lemma ScaledByTail(xs: seq<real>, ys: seq<real>, n: real)
    requires ScaledBy(xs, ys, n) && |xs| > 0
    ensures xs[0] * n == ys[0] && ScaledBy(xs[1..], ys[1..], n)
  {
  }

  /** Scaling every term scales the sum. */
  lemma {:induction false} SumScaled(xs: seq<real>, ys: seq<real>, n: real)
    requires ScaledBy(xs, ys, n)
    ensures Sum(xs) * n == Sum(ys)
  {
    if |xs| > 0 {
      ScaledByTail(xs, ys, n);
      SumScaled(xs[1..], ys[1..], n);
      ScaledStep(xs[0], Sum(xs[1..]), Sum(xs), n, ys[0], Sum(ys[1..]));
    }
  }

  /** `(a + b) * n == a * n + b * n`, with every term named. */
  lemma ScaledStep(a: real, b: real, total: real, n: real, an: real, bn: real)
    requires total == a + b && a * n == an && b * n == bn
    ensures total * n == an + bn
  {
  }

  /** `n` copies of `x`: `x * np.ones(n)`. */
  function Repeat<T>(x: T, n: nat): (r: seq<T>)
    ensures |r| == n
    ensures forall i :: 0 <= i < n ==> r[i] == x
  {
    if n == 0 then [] else [x] + Repeat(x, n - 1)
  }

  /** Concatenation of a list of sequences: repeated `np.append` / `np.hstack`. */
  function Flatten<T>(ss: seq<seq<T>>): seq<T> {
    if |ss| == 0 then [] else ss[0] + Flatten(ss[1..])
  }

  /** Positions in a constant prefix hold its value; later positions index the rest. */
  lemma ConstantThenRest<T>(a: seq<T>, b: seq<T>, x: T)
    requires forall j :: 0 <= j < |a| ==> a[j] == x
    ensures forall j :: 0 <= j < |a| ==> (a + b)[j] == x
    ensures forall j :: |a| <= j < |a| + |b| ==> (a + b)[j] == b[j - |a|]
  {
  }

  lemma {:induction false} FlattenComplete<T>(ss: seq<seq<T>>)
    ensures forall i, x :: 0 <= i < |ss| && x in ss[i] ==> x in Flatten(ss)
  {
    if |ss| > 0 {
      FlattenComplete(ss[1..]);
      forall i, x | 0 <= i < |ss| && x in ss[i]
        ensures x in Flatten(ss)
      {
        if i > 0 {
          assert ss[1..][i - 1] == ss[i];
        }
      }
    }
  }

  lemma {:induction false} FlattenSound<T>(ss: seq<seq<T>>, x: T) returns (i: nat)
    requires x in Flatten(ss)
    ensures i < |ss| && x in ss[i]
  {
    if x in ss[0] {
      i := 0;
    } else {
      var i' := FlattenSound(ss[1..], x);
      i := i' + 1;
    }
  }

  function TotalLength<T>(ss: seq<seq<T>>): nat {
    if |ss| == 0 then 0 else |ss[0]| + TotalLength(ss[1..])
  }

  lemma {:induction false} FlattenLength<T>(ss: seq<seq<T>>)
    ensures |Flatten(ss)| == TotalLength(ss)
  {
    if |ss| > 0 {
      FlattenLength(ss[1..]);
    }
  }

  // ---------------------------------------------------------------------
  // Sorting

  predicate SortedBy<T>(s: seq<T>, key: T -> real) {
    forall i, j :: 0 <= i < j < |s| ==> key(s[i]) <= key(s[j])
  }

  function InsertBy<T(==)>(x: T, s: seq<T>, key: T -> real): (r: seq<T>)
    requires SortedBy(s, key)
    ensures SortedBy(r, key)
    ensures multiset(r) == multiset(s) + multiset{x}
  {
    if |s| == 0 then [x]
    else if key(x) <= key(s[0]) then [x] + s
    else
      var tail := InsertBy(x, s[1..], key);
      assert s == [s[0]] + s[1..];
      InsertedAbove(x, s, tail, key);
      SortedCons(s[0], tail, key);
      [s[0]] + tail
  }

  /** Everything in the re-sorted tail is at or above the head it stays behind. */
  lemma InsertedAbove<T>(x: T, s: seq<T>, tail: seq<T>, key: T -> real)
    requires |s| > 0 && SortedBy(s, key) && key(s[0]) < key(x)
    requires multiset(tail) == multiset(s[1..]) + multiset{x}
    ensures forall y :: y in tail ==> key(s[0]) <= key(y)
  {
    forall y | y in tail ensures key(s[0]) <= key(y) {
      assert y in multiset(tail);
      if y != x {
        assert y in multiset(s[1..]);
        var k :| 0 <= k < |s[1..]| && s[1..][k] == y;
        assert s[k + 1] == y;
      }
    }
  }

  lemma SortedCons<T>(h: T, s: seq<T>, key: T -> real)
    requires SortedBy(s, key)
    requires forall y :: y in s ==> key(h) <= key(y)
    ensures SortedBy([h] + s, key)
  {
    var r := [h] + s;
    forall i, j | 0 <= i < j < |r| ensures key(r[i]) <= key(r[j]) {
      assert r[j] == s[j - 1];
      if i > 0 {
        assert r[i] == s[i - 1];
      } else {
        assert s[j - 1] in s;
      }
    }
  }

  /** A permutation of `s` ordered by non-decreasing `key` (numpy's `argsort` applied
      to the rows). Nothing is promised about the order of rows with equal keys. */
  function SortBy<T(==)>(s: seq<T>, key: T -> real): (r: seq<T>)
    ensures SortedBy(r, key)
    ensures multiset(r) == multiset(s)
  {
    if |s| == 0 then [] else
      assert s == [s[0]] + s[1..];
      InsertBy(s[0], SortBy(s[1..], key), key)
  }

  /** Sorting keeps exactly the elements it was given. */
  lemma SortByMembers<T>(s: seq<T>, key: T -> real, x: T)
    ensures x in SortBy(s, key) <==> x in s
  {
    assert x in SortBy(s, key) <==> x in multiset(SortBy(s, key));
  }

  /** Keys that separate all elements of a collection. */
  ghost predicate KeyInjective<T(!new)>(m: multiset<T>, key: T -> real) {
    forall x, y :: x in m && y in m && key(x) == key(y) ==> x == y
  }

  /** When no two elements share a key, there is only one sorted arrangement. */
  lemma {:induction false} SortedArrangementUnique<T(!new)>(a: seq<T>, b: seq<T>, key: T -> real)
    requires multiset(a) == multiset(b)
    requires SortedBy(a, key) && SortedBy(b, key)
    requires KeyInjective(multiset(a), key)
    ensures a == b
    decreases |a|
  {
    SameLength(a, b);
    if |a| > 0 {
      SortedHeadsAgree(a, b, key);
      SortedTails(a, b, key);
      SortedArrangementUnique(a[1..], b[1..], key);
      HeadTailEqual(a, b);
    }
  }

  lemma SameLength<T>(a: seq<T>, b: seq<T>)
    requires multiset(a) == multiset(b)
    ensures |a| == |b|
  {
    assert |a| == |multiset(a)|;
  }

  lemma HeadTailEqual<T>(a: seq<T>, b: seq<T>)
    requires |a| > 0 && |b| > 0 && a[0] == b[0] && a[1..] == b[1..]
    ensures a == b
  {
    assert a == [a[0]] + a[1..];
    assert b == [b[0]] + b[1..];
  }

  /** Two sorted arrangements of the same elements under an injective key start alike. */
  lemma SortedHeadsAgree<T(!new)>(a: seq<T>, b: seq<T>, key: T -> real)
    requires multiset(a) == multiset(b) && |a| > 0 && |b| > 0
    requires SortedBy(a, key) && SortedBy(b, key)
    requires KeyInjective(multiset(a), key)
    ensures a[0] == b[0]
  {
    assert a[0] in multiset(b);
    assert b[0] in multiset(a);
    var i :| 0 <= i < |b| && b[i] == a[0];
    var j :| 0 <= j < |a| && a[j] == b[0];
    assert key(b[0]) <= key(a[0]) by { assert key(b[0]) <= key(b[i]); }
    assert key(a[0]) <= key(a[j]);
  }

  /** Dropping an equal head keeps the hypotheses of `SortedArrangementUnique`. */
  lemma SortedTails<T(!new)>(a: seq<T>, b: seq<T>, key: T -> real)
    requires multiset(a) == multiset(b) && |a| > 0 && |b| > 0 && a[0] == b[0]
    requires SortedBy(a, key) && SortedBy(b, key)
    requires KeyInjective(multiset(a), key)
    ensures multiset(a[1..]) == multiset(b[1..])
    ensures SortedBy(a[1..], key) && SortedBy(b[1..], key)
    ensures KeyInjective(multiset(a[1..]), key)
  {
    assert a == [a[0]] + a[1..];
    assert b == [b[0]] + b[1..];
    assert multiset(a) == multiset{a[0]} + multiset(a[1..]);
    assert multiset(b) == multiset{a[0]} + multiset(b[1..]);
    SortedSuffix(a, 1, key);
    SortedSuffix(b, 1, key);
    KeyInjectiveSub(multiset(a[1..]), multiset(a), key);
  }

  /** Every suffix of a sorted sequence is sorted. */
  lemma SortedSuffix<T>(s: seq<T>, n: nat, key: T -> real)
    requires n <= |s| && SortedBy(s, key)
    ensures SortedBy(s[n..], key)
  {
    var t := s[n..];
    forall i, j | 0 <= i < j < |t| ensures key(t[i]) <= key(t[j]) {
      assert t[i] == s[n + i] && t[j] == s[n + j];
    }
  }

  lemma KeyInjectiveSub<T(!new)>(m: multiset<T>, m': multiset<T>, key: T -> real)
    requires m <= m' && KeyInjective(m', key)
    ensures KeyInjective(m, key)
  {
  }
}

=== FILE: tiling.dfy ===
/** Cutting a survey into tiles: one tile per coarse pixel that the survey
    footprint touches (`hpx_split_survey`, lib/utils.py). */
module Tiling {

  import opened Seqs
  import opened PixelGrid
  import opened Footprint

  /** One row of the tile table. `areaDeg2` is the nominal area of the tile pixel
      and `effAreaDeg2` the part of it the footprint covers. */
  datatype Tile = Tile(id: nat, hpix: Pixel, centre: Sky, areaDeg2: real, effAreaDeg2: real,
                       nside: Nside, nest: bool)

  function EffColumn(tiles: seq<Tile>): (r: seq<real>)
    ensures |r| == |tiles|
    ensures forall i :: 0 <= i < |tiles| ==> r[i] == tiles[i].effAreaDeg2
  {
    seq(|tiles|, i requires 0 <= i < |tiles| => tiles[i].effAreaDeg2)
  }

  /** The tile table of a survey footprint given by its pixel column `hpixMap` and
      fraction column `fracMap` at resolution `fp`, tiled at resolution `tile`.
      The tiles are the degraded footprint pixels in increasing order, numbered
      from 0; the effective area is the degraded fraction times the tile pixel
      area. `fracMap` is read but plays no part. The number of tiles is returned
      alongside the table. */
  function HpxSplitSurvey(g: Geometry, hpixMap: seq<Pixel>, fracMap: seq<real>, fp: Scheme, tile: Scheme): (r: (seq<Tile>, nat))
    ensures r.1 == |r.0|
    ensures var d := HpxDegrade(g, hpixMap, fp, tile);
      var area := g.pixArea(tile.nside);
      && |r.0| == |d.pixels|
      && (forall i :: 0 <= i < |r.0| ==>
            && r.0[i].id == i
            && r.0[i].hpix == d.pixels[i]
            && r.0[i].centre == g.pix2ang(tile, d.pixels[i])
            && r.0[i].areaDeg2 == area
            && r.0[i].nside == tile.nside && r.0[i].nest == tile.nest)
      && ScaledBy(d.fracs, EffColumn(r.0), area)
  {
    var tiles := TileTable(g, tile, HpxDegrade(g, hpixMap, fp, tile), g.pixArea(tile.nside));
    (tiles, |tiles|)
  }

  /** The rows of the tile table for the degraded pixels `d`, each of area `area`. */
  function TileTable(g: Geometry, tile: Scheme, d: Degraded, area: real): (r: seq<Tile>)
    requires |d.pixels| == |d.fracs|
    ensures |r| == |d.pixels|
    ensures forall i :: 0 <= i < |r| ==>
      && r[i].id == i
      && r[i].hpix == d.pixels[i]
      && r[i].centre == g.pix2ang(tile, d.pixels[i])
      && r[i].areaDeg2 == area
      && r[i].nside == tile.nside && r[i].nest == tile.nest
    ensures ScaledBy(d.fracs, EffColumn(r), area)
  {
    seq(|d.pixels|, i requires 0 <= i < |d.pixels| =>
      Tile(i, d.pixels[i], g.pix2ang(tile, d.pixels[i]), area, d.fracs[i] * area, tile.nside, tile.nest))
  }

  /** Tile ids and tile pixels both increase down the table, so neither repeats. */
  lemma TilesOrdered(g: Geometry, hpixMap: seq<Pixel>, fracMap: seq<real>, fp: Scheme, tile: Scheme)
    ensures var tiles := HpxSplitSurvey(g, hpixMap, fracMap, fp, tile).0;
      forall i, j :: 0 <= i < j < |tiles| ==> tiles[i].id < tiles[j].id && tiles[i].hpix < tiles[j].hpix
  {
  }

  /** Every footprint pixel lies in exactly one tile: the tile pixel its centre
      falls in appears at one row of the table and at no other. */
  lemma TilesCoverFootprint(g: Geometry, hpixMap: seq<Pixel>, fracMap: seq<real>, fp: Scheme, tile: Scheme, j: nat)
    requires j < |hpixMap|
    ensures var tiles := HpxSplitSurvey(g, hpixMap, fracMap, fp, tile).0;
      var p := g.Parent(fp, tile, hpixMap[j]);
      && (exists i :: 0 <= i < |tiles| && tiles[i].hpix == p)
      && (forall i, k :: 0 <= i < |tiles| && 0 <= k < |tiles| && tiles[i].hpix == p && tiles[k].hpix == p ==> i == k)
  {
    var d := HpxDegrade(g, hpixMap, fp, tile);
    var parents := g.Parents(fp, tile, hpixMap);
    assert parents[j] in parents;
    var i :| 0 <= i < |d.pixels| && d.pixels[i] == parents[j];
    IncreasingHasNoDup(d.pixels);
  }

  /** The effective survey area the source reports, the sum of the effective tile
      areas, is the sum of the degraded fractions times the tile area. */
  lemma EffectiveSurveyArea(g: Geometry, hpixMap: seq<Pixel>, fracMap: seq<real>, fp: Scheme, tile: Scheme)
    ensures Sum(EffColumn(HpxSplitSurvey(g, hpixMap, fracMap, fp, tile).0)) ==
            Sum(HpxDegrade(g, hpixMap, fp, tile).fracs) * g.pixArea(tile.nside)
  {
    SplitSurveyTable(g, hpixMap, fracMap, fp, tile);
    TableArea(g, tile, HpxDegrade(g, hpixMap, fp, tile), g.pixArea(tile.nside));
  }

  lemma SplitSurveyTable(g: Geometry, hpixMap: seq<Pixel>, fracMap: seq<real>, fp: Scheme, tile: Scheme)
    ensures HpxSplitSurvey(g, hpixMap, fracMap, fp, tile).0 ==
            TileTable(g, tile, HpxDegrade(g, hpixMap, fp, tile), g.pixArea(tile.nside))
  {
  }

  lemma TableArea(g: Geometry, tile: Scheme, d: Degraded, area: real)
    requires |d.pixels| == |d.fracs|
    ensures Sum(EffColumn(TileTable(g, tile, d, area))) == Sum(d.fracs) * area
  {
    SumScaled(d.fracs, EffColumn(TileTable(g, tile, d, area)), area);
  }
}
